=== FILE: README.md ===
# File exchange: command interpreter and framing

A model of the per-connection core of a small Java file-exchange system, in
two revisions:

- the **current** revision: `server/FileServer.java` with `client/FileClient.java`;
- the **legacy** revision: the top-level `FileServer.java` with `FileClient.java`.

The server reads command lines from a socket with `BufferedReader.readLine`,
splits each with `String.split(" ")`, lower-cases the keyword and dispatches
to `/join`, `/leave`, `/register`, `/store`, `/dir`, `/get`, `/?` or the
"command not found" branch. The handlers update the session handle
(`clientHandle`), the process-wide `connectedClients` map, a per-handle
uploads folder, and write fixed response strings. Uploads are framed inline
on the command stream: the server stores lines until a terminating line
(an empty line, and in the current revision also `EOF`) or the end of the
stream. The current client sends a file's characters followed by the sentinel
`"\nEOF\n"` and saves a download up to the first `'\n'`; the legacy client
re-sends each line of the file followed by `"\n"`.

Modules:

- `JavaText` (`java_text.dfy`): `String.split(" ")` (trailing empty strings
  dropped, a line of spaces gives no part), ASCII `toLowerCase`,
  `startsWith`, `Integer.parseInt`.
- `LineIo` (`line_io.dfy`): how `readLine` cuts a character stream into
  lines (`'\n'`, `'\r'`, `"\r\n"`), writing lines back with `"\n"`, and the
  client's read-up-to-newline loop.
- `Framing` (`framing.dfy`): the server's upload frame decoder for both
  revisions.
- `Server` (`server.dfy`): class `Server`, one connection, with every
  handler as a method over its fields; both revisions share the class and
  differ in `HandleStoreCurrent`/`HandleStoreLegacy` and
  `HandleGetCurrent`/`HandleGetLegacy`.
- `Client` (`client.dfy`): the client's command loop for both revisions.
- `Interop` (`interop.dfy`): what each end makes of the other's bytes — the
  upload and download round trips and where they break.
- `Wrappers`, `Seqs`: `Option` and small sequence facts.

The server's socket is the sequence of lines its reader yields plus the
string written so far; the uploads folder is a set of per-handle folders and
a map from `(handle, filename)` to contents. The clock, the outcome of the
outbound connect of `/join`, `mkdirs`, and whether a file opens are inputs.
An unchecked exception (`parts[0]` on a line of spaces, `Integer.parseInt`
on a non-number, a port outside 0..65535 in the `Socket` constructor) is an
explicit `Crashed` outcome that skips the cleanup.

Behaviour of the code worth noting, each proved as a property of the model:

- `/register` never inserts the handle into `connectedClients`, and its
  duplicate check compares a `String` with `Socket` values, so it never
  rejects a handle (`Server.DuplicateCheckNeverFires`): a well-formed
  `/register` always succeeds.
- A `/register` with the wrong number of parts clears an earlier handle
  (`Server.Server.HandleRegister`).
- `/join` and `/leave` key the map by the client's address, while the
  cleanup at end of stream removes the handle's key.
- `/leave` does not end the connection; the loop goes on reading.
- `/dir` lists the top-level entries of the uploads folder, which are the
  per-handle folders, not the uploaded file names.
- An upload of a file of two or more lines followed by a download does not
  give back the file: the client keeps only the first line
  (`Interop.GetStoredFile`). A one-line file without a final newline does
  come back unchanged (`Interop.GetSingleLine`). A file that ends
  with exactly one newline, and whose lines are neither empty nor `EOF`, makes the
  server store its lines, stop at the empty line the sentinel then forms,
  and read `EOF` as an unknown command
  (`Interop.CurrentUploadTrailingNewline`, `Interop.SentinelCommands`).
- The legacy server writes the "Uploaded" status line even when the folder
  or the file could not be created.

## Model

| member | source | states |
|---|---|---|
| JavaText.ToLowerAscii | server/FileServer.java:42 | same length; every character lower-cased in the ASCII range, all others unchanged |
| JavaText.StartsWith | client/FileClient.java:26 | `startsWith`: the prefix is no longer than the text and equals its first characters; also the tests at client/FileClient.java:47 and 62 |
| JavaText.Split | server/FileServer.java:41 | every part is free of spaces; a space-free line is its own single part (so `""` gives `[""]`); the last part of a line with spaces is never empty |
| JavaText.FieldsJoin | server/FileServer.java:41 | joining the space-separated fields with single spaces gives back the line |
| JavaText.JoinDropTrailing | server/FileServer.java:41 | dropping trailing empty fields only removes trailing spaces from the joined text |
| JavaText.SplitJoin | server/FileServer.java:41 | the joined parts are a prefix of the line followed only by spaces; no part at all exactly when the line is a non-empty run of spaces |
| JavaText.SplitTwoWords | server/FileServer.java:41 | two non-empty space-free words joined by one space split into exactly those two parts |
| JavaText.FieldsOfWord | server/FileServer.java:41 | a space-free word is a single field |
| JavaText.FieldsAfterWord | server/FileServer.java:41 | a word followed by a space contributes one field before the fields of the rest |
| JavaText.WordInJoinIsSpaceFree | server/FileServer.java:41 | parts whose last one is a non-empty word never join to a run of spaces |
| JavaText.JoinSnoc | server/FileServer.java:41 | appending a part appends a space and the part to the joined text |
| JavaText.JoinFieldsConsShift | server/FileServer.java:41 | a character prepended to the first field is prepended to the joined text |
| JavaText.ParseInt | server/FileServer.java:103 | a parsed value is within the 32-bit range and the text starts with a digit or a sign; a value without a leading '-' is non-negative |
| JavaText.ParseIntDecimal | server/FileServer.java:103 | `Integer.parseInt` of the decimal text of any n up to 2^31-1 gives n back |
| JavaText.DecimalValue | server/FileServer.java:103 | the digits of the decimal text of n denote n |
| JavaText.Decimal | server/FileServer.java:103 | the decimal text of a number is a non-empty run of digits |
| LineIo.LineEnd | server/FileServer.java:36 | the index of the first terminator, with no terminator before it, or the length when there is none |
| LineIo.LineSkip | server/FileServer.java:36 | a `readLine` consumes the whole line and at least one character after it, unless the line runs to the end of the stream |
| LineIo.ReadLinesAfterCrLf | server/FileServer.java:36 | a line followed by "\r\n" reads as that line, then the rest: the pair is one terminator |
| LineIo.ReadLinesAfterCr | server/FileServer.java:36 | a line followed by a '\r' that is not followed by '\n' reads as that line, and the next line starts right after the '\r' |
| LineIo.ReadLines | server/FileServer.java:36 | the lines read from a stream hold no terminator, are no more than its characters, and a non-empty stream yields at least one |
| LineIo.NextLine | client/FileClient.java:58 | one `readLine` returns null exactly at the end of the stream and otherwise advances |
| LineIo.NextLineReads | client/FileClient.java:58 | the line one `readLine` returns is the first of the stream's lines, and the rest are read from where it stopped |
| LineIo.NextLineAfterLine | client/FileClient.java:58 | a `readLine` before a line and '\n' returns that line and stops right after the '\n' |
| LineIo.LineHasNoNewline | client/FileClient.java:76 | a line read by `readLine` holds no '\n' |
| LineIo.ReadLinesAfterLine | server/FileServer.java:36 | a line and '\n' read back as that line followed by the lines of the rest |
| LineIo.ReadJoinLines | server/FileServer.java:172-174 | lines written each with '\n' read back as exactly those lines, followed by the lines of the rest |
| LineIo.ReadLinesAppend | server/FileServer.java:36 | a text not ending in a terminator, a '\n' and a rest read as the text's lines followed by the rest's |
| LineIo.ReadLinesThenJoined | server/FileServer.java:36 | such a text followed by '\n' and written-out lines reads as the text's lines, those lines and the rest's |
| LineIo.FirstLineOfAppend | server/FileServer.java:36 | appending to a text that holds a terminator before its end leaves its first line and what the first `readLine` consumes unchanged |
| LineIo.LineEndPrefix | server/FileServer.java:36 | the first terminator of a text is found at the same place after anything is appended |
| LineIo.LineEndAfterLine | server/FileServer.java:36 | the first terminator after a terminator-free prefix is found past that prefix |
| LineIo.ReadSingleLine | server/FileServer.java:36 | a non-empty text without terminator is read as one line |
| LineIo.JoinReadLines | server/FileServer.java:172-174 | writing back the lines of a text without '\r' and without a final '\n' gives the text plus one final '\n' |
| LineIo.JoinLines | server/FileServer.java:173-174 | the stored-file format: each line followed by one "\n", as `write(line); newLine()` emits it; the same text `line + System.lineSeparator()` emits at FileServer.java:171 and FileClient.java:36 |
| LineIo.JoinLinesSnoc | server/FileServer.java:200-202 | writing one more line appends it and '\n' |
| LineIo.JoinLinesCons | server/FileServer.java:172-174 | helper: writing a first line then the others is that line, '\n', then the others |
| LineIo.JoinLinesHead | server/FileServer.java:221-224 | helper: written lines followed by a rest are the first line, '\n', then the other lines and the rest |
| LineIo.JoinOne | server/FileServer.java:240 | helper: one written line followed by a rest is the line, '\n', then the rest |
| LineIo.FirstLineStartsWith | client/FileClient.java:62 | the first line read from a stream that starts with a terminator-free text starts with that text |
| LineIo.UpToNewline | client/FileClient.java:76-78 | the saved characters are a '\n'-free prefix of the stream, stopped by a '\n' or the end of the stream |
| LineIo.UpToNewlineUnique | client/FileClient.java:76-78 | any '\n'-free prefix stopped by '\n' or the end is the saved text |
| LineIo.UpToNewlineAppend | client/FileClient.java:76-78 | appending after a '\n' changes nothing saved; a '\n'-free text followed by '\n' is saved whole |
| Framing.EndsFrame | server/FileServer.java:172 | the current revision's upload loop stops at an empty line or the line "EOF" (the legacy one, FileServer.java:170, only at an empty line) |
| Framing.DecodeFrame | server/FileServer.java:172-175 | the stored lines are the longest prefix of non-terminating lines; the terminator, when present, is consumed and not stored; otherwise all lines are consumed |
| Framing.DecodeTerminated | server/FileServer.java:172-175 | ordinary lines followed by a terminator decode to exactly those lines, consuming the terminator and nothing after it |
| Framing.FrameEndsWithin | FileServer.java:170-172 | the frame ends within given lines if and only if one of them is a terminator, and then holds the lines before the first one |
| Framing.DecodeAppend | FileServer.java:170-172 | ordinary lines are stored whatever follows them, and decoding continues into what follows |
| Server.SocketsOnly | server/FileServer.java:11 | the declared type `HashMap<String, Socket>`: every value of the map is a socket |
| Server.ContainsValue | server/FileServer.java:137 | `containsValue`: some key maps to a value equal to the given object |
| Server.Classify | server/FileServer.java:44-84 | the `switch` on the lower-cased keyword: the seven command words, anything else is unknown |
| Server.CommandOf | server/FileServer.java:41-44 | the command a line selects: the first part of `split(" ")`, lower-cased; none when there is no part |
| Server.CommandOfNone | server/FileServer.java:41-42 | a line selects no command (and `parts[0]` throws) if and only if it is a non-empty run of spaces |
| Server.JoinCrashes | server/FileServer.java:103-106 | `/join` with three parts throws exactly when the port text is not a 32-bit decimal number (`Integer.parseInt`) or is outside 0..65535 (`new Socket`) |
| Server.IsValidStoreCommand | server/FileServer.java:189-191 | a handle is registered and the command has exactly two parts |
| Server.GetBody | server/FileServer.java:210-238 | what `/get` writes before the sentinel: the stored characters, or the not-found, read or syntax error line |
| Server.DirReply | server/FileServer.java:193-208 | what `/dir` may write: the empty message, or the header and each folder once in some order |
| Server.DuplicateCheckNeverFires | server/FileServer.java:137 | on a map whose values are sockets, `containsValue` of a handle string is false for every handle |
| Server.Welcome | server/FileServer.java:138 | the registration reply: "Welcome ", the handle, "!" and "\n" |
| Server.Uploaded | server/FileServer.java:176 | the upload status line: the handle, the timestamp in angle brackets, ": Uploaded ", the file name and "\n" |
| Server.FileReceived | FileServer.java:208 | the legacy `/get` reply: "File received from Server: ", the file name and "\n" |
| Server.Server.constructor | server/FileServer.java:27-32 | a new connection has read nothing, written nothing and has no handle |
| Server.Server.HandleJoin | server/FileServer.java:100-119 | three parts, a valid port and a connect: the address maps to the new socket and the success line is written; connect failure or other arity: the map is unchanged and the matching error line is written; an unparsable or out-of-range port crashes with nothing written |
| Server.Server.HandleLeave | server/FileServer.java:121-132 | the address key present: exactly it is removed and "Connection closed. Thank you!" is written; otherwise the map is unchanged and the disconnection error is written |
| Server.Server.HandleRegister | server/FileServer.java:134-151 | two parts: the handle becomes parts[1] and "Welcome h!" is written, since the map holds only sockets and the duplicate check never fires (its "already exists" branch is stated, with the map holding the handle as a value); other arity: the handle becomes null and the syntax error is written |
| Server.Server.ReceiveUpload | server/FileServer.java:169-175 | reads exactly the lines `DecodeFrame` consumes and returns exactly the lines it stores |
| Server.Server.HandleStoreCurrent | server/FileServer.java:153-187 | invalid command: one syntax error, no input read, store unchanged; folder missing and not creatable: the folder error, nothing read; file not opened: the save error, nothing read; otherwise the file becomes the frame's lines each with '\n', exactly the frame is consumed, the status line is written; files of other handles never change |
| Server.Server.HandleStoreLegacy | FileServer.java:153-184 | valid command: the status line is written whatever happens to the folder or the file; the frame (ended only by an empty line) is read and stored only when the folder exists and the file opens; invalid command: one syntax error, nothing read |
| Server.Server.HandleDir | server/FileServer.java:193-208 | writes the empty message when there are no folders, otherwise the header and one line per folder, each folder exactly once |
| Server.Server.HandleGetCurrent | server/FileServer.java:210-246 | writes the stored characters verbatim, or the not-found, read or syntax error line, then always "\nEOF\n" and "Enter command: " |
| Server.Server.HandleGetLegacy | FileServer.java:203-214 | writes only "File received from Server: name" or the syntax error, with no sentinel and no file read |
| Server.Server.HandleHelp | server/FileServer.java:249-260 | writes the fixed help text |
| Server.Server.Dispatch | server/FileServer.java:41-85 | crashes exactly on a line of spaces or a crashing `/join`, writing nothing; for each keyword, the parts of the line reach its handler and the new handle, map, read position, folders, files and output are those the handler's contract gives (`/dir`: some order of the folders); an unknown keyword writes only "Error: Command not found."; only `/register` changes the handle, only `/store` reads input or touches the store, only `/join`/`/leave` touch the map and only at the connection's address |
| Server.Server.Serve | server/FileServer.java:27-98 | at end of input every line has been read and the final handle's key is no longer in the map; a crash skips that cleanup; keys other than the address and the final handle never change; only folders and files of handles the session held change |
| Client.IsUpload | client/FileClient.java:26 | the upload branch: the command starts with "/store", case-sensitively |
| Client.IsDownload | client/FileClient.java:47 | the download branch: not an upload, and the lower-cased command starts with "/get" |
| Client.FileArg | client/FileClient.java:28-30 | the file name: the second part when `split(" ")` gives exactly two |
| Client.FileArgIsWord | client/FileClient.java:28-30 | that file name is never empty and holds no space |
| Client.Transmit | client/FileClient.java:22-46 | every command is sent first, followed by "\n"; a non-upload command sends nothing else |
| Client.Download | client/FileClient.java:47-55 | the read position never goes backwards or past the end of the stream |
| Client.SendFile | client/FileClient.java:33-39 | the chunks sent concatenate to exactly the file's characters |
| Client.SendLines | FileClient.java:33-37 | the legacy client sends each of the file's lines followed by "\n", and nothing else |
| Client.ReceiveFile | client/FileClient.java:73-84 | saves exactly the characters up to the first '\n' or the end, and consumes the '\n' |
| Client.Send | client/FileClient.java:22-46 | sends exactly what `Transmit` describes |
| Client.Receive | client/FileClient.java:47-55 | leaves the local files and the read position as `Download` describes |
| Client.Exchange | client/FileClient.java:17-64 | one loop turn: sends, downloads and reads one response line, as `Turn` relates them |
| Client.ExtendHistory | client/FileClient.java:17-64 | a history of turns extended by one more turn is a history |
| Client.Session | client/FileClient.java:17-65 | one response per command; the loop ends on a response starting with "Connection closed" and on no earlier one, or when commands run out, or when the server closed the stream; everything sent is the turns' frames in order |
| Interop.StoreCommandParses | client/FileClient.java:26-30 | `/store name` is one line, the client takes it for an upload of `name` and the server splits it into `/store` and `name` |
| Interop.GetCommandParses | client/FileClient.java:47-51 | `/get name` is taken by the client for a download of `name` and dispatched by the server to `/get` |
| Interop.TransmitCurrent | client/FileClient.java:22-46 | a readable file is sent as the command line, the characters, then "\nEOF\n" |
| Interop.SentinelLines | client/FileClient.java:45 | the sentinel reads as an empty line and the line "EOF" |
| Interop.SentinelJoin | client/FileClient.java:45 | the sentinel is the lines "" and "EOF" written out |
| Interop.SentinelSplit | client/FileClient.java:45 | the sentinel is "\n" followed by the line "EOF" written out |
| Interop.ContentSentinelLines | client/FileClient.java:36-45 | content without a final terminator, then the sentinel, reads as the content's lines and "EOF" |
| Interop.CurrentUploadLines | client/FileClient.java:22-46 | the server reads the command, the content's lines, "EOF", then what comes next |
| Interop.CurrentUploadRoundTrip | server/FileServer.java:172 | the stored lines are exactly the content's lines and only the sentinel is consumed if and only if no content line is empty or "EOF"; otherwise a strict prefix is stored; without '\r' the stored text is the content plus '\n' |
| Interop.CurrentUploadTrailingNewline | server/FileServer.java:172 | content ending in exactly one '\n', with no line empty or "EOF", is stored as its lines, the frame ends on the sentinel's empty line, and "EOF" is left to be read as a command |
| Interop.CurrentUploadTrailingLines | client/FileClient.java:36-45 | such an upload reads as the command, the content's lines, "", "EOF" and what follows |
| Interop.TrailingNewlineLines | client/FileClient.java:36-45 | content ending in '\n' then the sentinel reads as the content's lines, "" and "EOF" |
| Interop.CurrentUploadWithoutContent | client/FileClient.java:29-46 | with wrong arity or an unreadable or empty file the server still reads an empty line and "EOF" after the command |
| Interop.SentinelCommands | server/FileServer.java:80-84 | read as commands, "" and "EOF" are both unknown ones |
| Interop.LegacyUploadLines | FileClient.java:33-37 | the legacy server reads the command, the file's lines, then what the client sends next |
| Interop.LegacyUploadFrame | FileServer.java:170 | the frame ends within the file if and only if the file has an empty line; a file without one is stored together with the lines that follow, up to the next empty line or the end |
| Interop.SentinelBefore | server/FileServer.java:240 | helper: the sentinel followed by anything is "\n", "EOF", "\n", then that |
| Interop.PromptLine | server/FileServer.java:244 | the line read after a `/get` reply's "EOF" starts with the prompt, so it never starts with "Connection closed" |
| Interop.DownloadLine | client/FileClient.java:73-84 | a download facing a line and '\n' saves exactly that line and continues after the '\n' |
| Interop.GetSingleLine | server/FileServer.java:216-245 | for a file without '\n', the client saves exactly the file, reads "EOF" as the response and is left at the prompt |
| Interop.GetStoredFile | server/FileServer.java:216-245 | for a stored file, the client saves only its first line |
| Interop.StoredReplyNext | client/FileClient.java:58 | the response read after that download is the stored file's second line, or the empty line opening the sentinel for a one-line file |
| Interop.StoredReplyLine | client/FileClient.java:58 | the rest of the reply reads first as the second stored line or the empty line of the sentinel |

## Left out

- Sockets and threads: `main` and the accept loop of both servers, the
  client's socket setup and `socket.close()` are not modelled. The static
  `connectedClients` map is shared by all connection threads; the model
  gives it to one connection and does not model races between threads.
- Closing the outbound socket in `/leave` and the connection socket at the
  end of `handleClient` has no effect in the model beyond the map update.
- The file system is a set of folders and a map of contents; creating a
  folder, opening a file for writing or reading are boolean inputs. An
  `IOException` while a file is being written or read part way is not
  modelled.
- `IOException`s on the connection itself (the `catch` around
  `handleClient`) are not modelled.
- The clock is an input string, not formatted from a date.
- Console input and output (`Scanner`, `System.out`, `printStackTrace`)
  are left out; the client's commands are a sequence of lines.
- `System.lineSeparator()` and `BufferedWriter.newLine()` are taken to be
  "\n".
- `toLowerCase` is modelled for ASCII letters only.
- JavaText.ParseInt: only ASCII digits '0'..'9' are accepted; `Integer.parseInt`
  also accepts the decimal digits of other scripts (such as full-width
  digits), so a `/join` with such a port crashes in the model where Java
  goes on to connect.
- Buffering and flushing are not modelled: every character a program
  writes is taken to reach the other end. The sockets' byte streams are
  sequences of characters.
- Interop.LegacyUploadLines: the legacy client writes the file's lines
  without flushing (FileClient.java:35-37; its only flush is after the
  command line, line 23), then blocks reading a response while the legacy
  server blocks in its upload loop. A file smaller than the writer's buffer
  then never reaches the server and both ends wait; this lemma, and
  Interop.LegacyUploadFrame, describe what the server reads once the
  characters arrive. Even once they arrive, a file without an empty line
  leaves the legacy server in its upload loop (FileServer.java:170), since
  the legacy client sends no terminating line and waits for a response, so
  the "lines that follow" the file never come from this client: both ends
  wait again.
- Interop.LegacyUploadFrame: see the line above; the stall before the
  characters arrive is not modelled.
- File names are opaque keys: the model keys files by `(handle, filename)`
  while the code joins them into the path `uploads/<handle>/<filename>`.
  Names holding `/`, `.` or `..` that alias or leave the handle's folder,
  and names of directories, are not modelled.
- Server.Server.HandleGetCurrent: `/get ../../x` reads a file outside the
  uploads folder in the code and is "not found" in the model; `/get .`
  finds a directory (`exists()` holds), fails to read it and writes the
  read error, where the model writes "not found".
- Server.Server.HandleStoreCurrent: a name such as `../x` creates an entry
  outside the handle's folder, which `/dir` would then list; the model
  stores it under the handle. The same holds for
  Server.Server.HandleStoreLegacy.
- Server.Server.HandleStoreLegacy: see the line above.
- Server.Server.HandleRegister: a handle holding `/` makes `/store` create
  nested folders, of which `/dir` lists only the first; the model keeps the
  whole handle as one folder.
- Server.Server.HandleDir: the order in which the file system lists the
  folders is chosen arbitrarily by the method and returned; the model does
  not fix one order. Entries that unusual file or handle names create
  outside the per-handle folders (see above) are not in the listing.
- Server.Server.Serve: the contract states what the loop keeps and the
  cleanup it does, not the full text written over the session; each
  command's output and state change is stated by `Dispatch`.
- Client.Session: the characters the client receives are one fixed string;
  the model does not interleave them with what the server writes in reply
  to what the client sent.
- Client.Download: the client opens the target file before reading; a
  file that cannot be opened is an input set (`unwritable`), and then
  nothing is read.

=== FILE: client.dfy ===
/**
 * The command loop of the client (`main`) for both revisions: every typed
 * command goes to the server as a line; `/store` commands are followed by
 * the local file's content; in the current revision `/get` commands are
 * followed by saving the incoming characters up to the first newline; then
 * one response line is read, and the loop ends on a response that starts
 * with "Connection closed". The console is a sequence of typed lines, the
 * local folder a map from file name to content, the socket's incoming side
 * a string read through one cursor.
 */
module Client {
  import opened Wrappers
  import opened JavaText
  import opened LineIo
  import opened Framing

  /**
   * How the loop ends: on a "Connection closed" response, when the console
   * has no further line (Scanner.nextLine throws), or when the server closed
   * the stream (readLine returns null and `response.startsWith` throws).
   */
  datatype Outcome = Disconnected | ConsoleClosed | ServerGone

  const Closing := "Connection closed"

  /** The upload branch is taken on the case-sensitive prefix "/store". */
  predicate IsUpload(command: string) {
    StartsWith(command, "/store")
  }

  /** The download branch: prefix "/get" in any ASCII case, when the upload branch is not taken. */
  predicate IsDownload(command: string) {
    !IsUpload(command) && StartsWith(ToLowerAscii(command), "/get")
  }

  /** `parts[1]` when `command.split(" ")` has exactly two parts. */
  function FileArg(command: string): Option<string> {
    var parts := Split(command);
    if |parts| == 2 then Some(parts[1]) else None
  }

  /** The file name a command carries is a non-empty word: `split(" ")` leaves no space in it. */
  lemma FileArgIsWord(command: string)
    ensures var f := FileArg(command); f.Some? ==> f.value != "" && NoSpace(f.value)
  {
  }

  /**
   * The characters one typed command puts on the socket, given the local
   * files: the command and "\n"; for an upload, the file's content when it
   * can be read, then (current revision) the sentinel even when nothing was
   * sent, or (legacy revision) each of the file's lines followed by "\n"
   * and no sentinel.
   */
  function Transmit(command: string, disk: map<string, string>, v: Variant): (r: string)
    ensures StartsWith(r, command + "\n")
    ensures !IsUpload(command) ==> r == command + "\n"
  {
    var f := FileArg(command);
    var readable := f.Some? && f.value in disk;
    command + "\n" +
    if !IsUpload(command) then ""
    else if v == Current then (if readable then disk[f.value] else "") + Sentinel
    else if readable then JoinLines(ReadLines(disk[f.value]))
    else ""
  }

  /**
   * The local files and read position after a command's download step: only
   * a current-revision download of a writable file named by exactly two
   * parts reads anything, and it saves the characters up to the first '\n',
   * consuming that '\n'.
   */
  function Download(command: string, disk: map<string, string>, unwritable: set<string>,
                    incoming: string, at: nat, v: Variant): (d: (map<string, string>, nat))
    requires at <= |incoming|
    ensures at <= d.1 <= |incoming|
  {
    var f := FileArg(command);
    if v == Current && IsDownload(command) && f.Some? && f.value !in unwritable then
      var saved := UpToNewline(incoming[at..]);
      (disk[f.value := saved], at + |saved| + if at + |saved| < |incoming| then 1 else 0)
    else (disk, at)
  }

  /** The strings of `ss`, one after another. */
  function Concat(ss: seq<string>): string {
    if ss == [] then "" else Concat(ss[..|ss| - 1]) + ss[|ss| - 1]
  }

  /** The current revision's upload loop: the file is forwarded in chunks of up to 1024 characters. */
  method SendFile(content: string) returns (sent: string)
    ensures sent == content
  {
    sent := "";
    var i := 0;
    while i < |content|
      invariant 0 <= i <= |content|
      invariant sent == content[..i]
    {
      var n := if |content| - i < ChunkSize then |content| - i else ChunkSize;
      assert content[..i + n] == content[..i] + content[i..i + n];
      sent := sent + content[i..i + n];
      i := i + n;
    }
    assert content[..i] == content;
  }

  /** The legacy revision's upload loop: each line of the file is re-sent followed by "\n". */
  method SendLines(content: string) returns (sent: string)
    ensures sent == JoinLines(ReadLines(content))
  {
    sent := "";
    var at := 0;
    while at < |content|
      invariant at <= |content|
      invariant JoinLines(ReadLines(content)) == sent + JoinLines(ReadLines(content[at..]))
      decreases |content| - at
    {
      var next := NextLine(content, at);
      NextLineReads(content, at);
      var (line, after) := next.value;
      sent := sent + line + "\n";
      at := after;
    }
    assert content[at..] == "";
  }

  /**
   * `handleFileRetrieval`'s copy loop: characters are saved until '\n' or the
   * end of the stream; the '\n' is consumed but not saved.
   */
  method ReceiveFile(incoming: string, at: nat) returns (saved: string, next: nat)
    requires at <= |incoming|
    ensures saved == UpToNewline(incoming[at..])
    ensures next == at + |saved| + if at + |saved| < |incoming| then 1 else 0
  {
    saved := "";
    next := at;
    while next < |incoming| && incoming[next] != '\n'
      invariant at <= next <= |incoming|
      invariant saved == incoming[at..next]
      invariant '\n' !in saved
      decreases |incoming| - next
    {
      saved := saved + [incoming[next]];
      next := next + 1;
    }
    UpToNewlineUnique(incoming[at..], saved);
    if next < |incoming| {
      next := next + 1;
    }
  }

  /**
   * What one turn of `main`'s loop does after `command` was typed, with the
   * local files `disk` and the read position `at` before it: it sends
   * `frame`, leaves the local files `disk'`, and reads `response` (`None`
   * when the server had closed the stream), stopping at position `at'`.
   */
  ghost predicate Turn(command: string, disk: map<string, string>, unwritable: set<string>,
                       incoming: string, at: nat, v: Variant,
                       frame: string, disk': map<string, string>, response: Option<string>, at': nat)
  {
    at <= |incoming| &&
    frame == Transmit(command, disk, v) &&
    var (d, mid) := Download(command, disk, unwritable, incoming, at, v);
    disk' == d &&
    match NextLine(incoming, mid)
    case None => response == None && at' == mid
    case Some((line, next)) => response == Some(line) && at' == next
  }

  /** One turn of `main`'s loop. */
  method Exchange(command: string, disk: map<string, string>, unwritable: set<string>,
                  incoming: string, at: nat, v: Variant)
    returns (frame: string, disk': map<string, string>, response: Option<string>, at': nat)
    requires at <= |incoming|
    ensures Turn(command, disk, unwritable, incoming, at, v, frame, disk', response, at')
    ensures at' <= |incoming|
  {
    frame := Send(command, disk, v);
    var mid;
    disk', mid := Receive(command, disk, unwritable, incoming, at, v);
    var reply := NextLine(incoming, mid);
    if reply.None? {
      response, at' := None, mid;
    } else {
      response, at' := Some(reply.value.0), reply.value.1;
    }
  }

  /** The sending half of a turn: the command line, then the upload if any. */
  method Send(command: string, disk: map<string, string>, v: Variant) returns (frame: string)
    ensures frame == Transmit(command, disk, v)
  {
    frame := command + "\n";
    var f := FileArg(command);
    if IsUpload(command) {
      if v == Current {
        if f.Some? && f.value in disk {
          var content := SendFile(disk[f.value]);
          frame := frame + content;
        }
        frame := frame + Sentinel;
      } else if f.Some? && f.value in disk {
        var content := SendLines(disk[f.value]);
        frame := frame + content;
      }
    }
  }

  /** The download half of a turn, before the response line is read. */
  method Receive(command: string, disk: map<string, string>, unwritable: set<string>,
                 incoming: string, at: nat, v: Variant) returns (disk': map<string, string>, mid: nat)
    requires at <= |incoming|
    ensures (disk', mid) == Download(command, disk, unwritable, incoming, at, v)
  {
    disk', mid := disk, at;
    var f := FileArg(command);
    if v == Current && !IsUpload(command) && StartsWith(ToLowerAscii(command), "/get") {
      if f.Some? && f.value !in unwritable {
        var saved, next := ReceiveFile(incoming, at);
        disk' := disk[f.value := saved];
        mid := next;
      }
    }
  }

  /** The response the i-th turn read: `None` only for a turn past the last response. */
  function ReplyAt(responses: seq<string>, i: nat): Option<string> {
    if i < |responses| then Some(responses[i]) else None
  }

  /** The turns taken so far, each related to the state before it. */
  ghost predicate History(commands: seq<string>, unwritable: set<string>, incoming: string, v: Variant,
                          frames: seq<string>, disks: seq<map<string, string>>, ats: seq<nat>, responses: seq<string>)
  {
    |frames| <= |commands| && |disks| == |ats| == |frames| + 1 &&
    forall i :: 0 <= i < |frames| ==>
      Turn(commands[i], disks[i], unwritable, incoming, ats[i], v, frames[i], disks[i + 1], ReplyAt(responses, i), ats[i + 1])
  }

  lemma ExtendHistory(commands: seq<string>, unwritable: set<string>, incoming: string, v: Variant,
                      frames: seq<string>, disks: seq<map<string, string>>, ats: seq<nat>, responses: seq<string>,
                      frame: string, disk': map<string, string>, reply: Option<string>, at': nat)
    requires History(commands, unwritable, incoming, v, frames, disks, ats, responses)
    requires |responses| == |frames| < |commands|
    requires Turn(commands[|frames|], disks[|frames|], unwritable, incoming, ats[|frames|], v, frame, disk', reply, at')
    ensures History(commands, unwritable, incoming, v, frames + [frame], disks + [disk'], ats + [at'],
                    if reply.Some? then responses + [reply.value] else responses)
  {
    var responses' := if reply.Some? then responses + [reply.value] else responses;
    var frames', disks', ats' := frames + [frame], disks + [disk'], ats + [at'];
    forall i | 0 <= i < |frames'|
      ensures Turn(commands[i], disks'[i], unwritable, incoming, ats'[i], v, frames'[i], disks'[i + 1], ReplyAt(responses', i), ats'[i + 1])
    {
      if i < |frames| {
        assert ReplyAt(responses', i) == ReplyAt(responses, i);
      } else {
        assert ReplyAt(responses', i) == reply;
      }
    }
  }

  /**
   * `main`'s loop. `frames[i]` is what the i-th command sent, `disks[i]` and
   * `ats[i]` the local files and the read position before it (ghost
   * bookkeeping).
   */
  method Session(commands: seq<string>, disk: map<string, string>, unwritable: set<string>,
                 incoming: string, v: Variant)
    returns (sent: string, finalDisk: map<string, string>, responses: seq<string>, outcome: Outcome,
             ghost frames: seq<string>, ghost disks: seq<map<string, string>>, ghost ats: seq<nat>)
    ensures |frames| == (if outcome == ServerGone then |responses| + 1 else |responses|) <= |commands|
    ensures outcome == ConsoleClosed ==> |responses| == |commands|
    ensures History(commands, unwritable, incoming, v, frames, disks, ats, responses)
    ensures disks[0] == disk && ats[0] == 0
    ensures finalDisk == disks[|frames|]
    ensures sent == Concat(frames)
    ensures outcome == Disconnected <==> |responses| > 0 && StartsWith(responses[|responses| - 1], Closing)
    ensures forall i :: 0 <= i < |responses| - 1 ==> !StartsWith(responses[i], Closing)
  {
    sent, finalDisk, responses := "", disk, [];
    var at, n := 0, 0;
    frames, disks, ats := [], [disk], [0];
    while true
      invariant n == |frames| == |responses| <= |commands|
      invariant at <= |incoming|
      invariant History(commands, unwritable, incoming, v, frames, disks, ats, responses)
      invariant disks[0] == disk && ats[0] == 0
      invariant finalDisk == disks[|frames|] && at == ats[|frames|]
      invariant sent == Concat(frames)
      invariant forall i :: 0 <= i < |responses| ==> !StartsWith(responses[i], Closing)
      decreases |commands| - n
    {
      if n == |commands| {
        outcome := ConsoleClosed;
        return;
      }
      var frame, disk', reply, at' := Exchange(commands[n], finalDisk, unwritable, incoming, at, v);
      ExtendHistory(commands, unwritable, incoming, v, frames, disks, ats, responses, frame, disk', reply, at');
      assert (frames + [frame])[..|frames|] == frames;
      sent, frames := sent + frame, frames + [frame];
      finalDisk, at := disk', at';
      disks, ats := disks + [finalDisk], ats + [at];
      if reply.Some? {
        responses := responses + [reply.value];
      }
      if reply.None? {
        outcome := ServerGone;
        return;
      }
      n := n + 1;
      if StartsWith(reply.value, Closing) {
        outcome := Disconnected;
        return;
      }
    }
  }
}

=== FILE: framing.dfy ===
/**
 * The upload frame as the server's `/store` handler decodes it: after the
 * command line, the file's lines follow on the same stream until a line that
 * ends the frame, or until the end of the stream. The two revisions of the
 * server differ only in which lines end a frame.
 */
module Framing {
  import opened Seqs

  /**
   * The two revisions of the programs: `Current` is server/FileServer.java
   * with client/FileClient.java, `Legacy` is the top-level FileServer.java
   * with FileClient.java.
   */
  datatype Variant = Current | Legacy

  /**
   * Whether `line` ends an upload: an empty line in both revisions, and the
   * sentinel line "EOF" in the current one.
   */
  predicate EndsFrame(line: string, v: Variant) {
    line == "" || (v == Current && line == "EOF")
  }

  /**
   * The characters that close the file data on the stream: the current
   * client writes them after an upload and the current server after the
   * reply to `/get`. Read as lines they are an empty line and "EOF".
   */
  const Sentinel := "\nEOF\n"

  /** The size of the `char` buffer through which both ends copy a file. */
  const ChunkSize := 1024

  /** The lines stored and the number of lines consumed by one upload. */
  datatype Frame = Frame(body: seq<string>, consumed: nat)

  /**
   * Decodes one upload frame from the lines that follow a `/store` command.
   * The body is the longest prefix of lines none of which ends the frame; the
   * terminating line, when there is one, is consumed but not stored.
   */
  function DecodeFrame(lines: seq<string>, v: Variant): (f: Frame)
    ensures |f.body| <= f.consumed <= |lines|
    ensures f.body == lines[..|f.body|]
    ensures forall i :: 0 <= i < |f.body| ==> !EndsFrame(f.body[i], v)
    ensures f.consumed == |f.body| ==> f.consumed == |lines|
    ensures f.consumed != |f.body| ==> f.consumed == |f.body| + 1 && EndsFrame(lines[|f.body|], v)
  {
    if lines == [] then Frame([], 0)
    else if EndsFrame(lines[0], v) then Frame([], 1)
    else
      var rest := DecodeFrame(lines[1..], v);
      Frame([lines[0]] + rest.body, rest.consumed + 1)
  }

  /**
   * A frame whose body lines are all ordinary and which is followed by a
   * terminating line decodes to exactly that body, consuming the terminator
   * and nothing after it.
   */
  lemma {:induction false} DecodeTerminated(body: seq<string>, end: string, rest: seq<string>, v: Variant)
    requires forall i :: 0 <= i < |body| ==> !EndsFrame(body[i], v)
    requires EndsFrame(end, v)
    ensures DecodeFrame(body + [end] + rest, v) == Frame(body, |body| + 1)
    decreases |body|
  {
    var lines := body + [end] + rest;
    if body != [] {
      assert lines[1..] == body[1..] + [end] + rest;
      DecodeTerminated(body[1..], end, rest, v);
      assert [body[0]] + body[1..] == body;
    }
  }

  /**
   * The frame ends among the lines `ls` (rather than at or after their end)
   * exactly when one of them ends a frame; then the body is what precedes
   * the first such line.
   */
  lemma {:induction false} FrameEndsWithin(ls: seq<string>, rest: seq<string>, v: Variant)
    ensures var f := DecodeFrame(ls + rest, v);
      (|f.body| < |ls| <==> exists i :: 0 <= i < |ls| && EndsFrame(ls[i], v))
    ensures var f := DecodeFrame(ls + rest, v);
      |f.body| < |ls| ==> f.body == ls[..|f.body|] && EndsFrame(ls[|f.body|], v) && f.consumed == |f.body| + 1
  {
    var f := DecodeFrame(ls + rest, v);
    if |f.body| < |ls| {
      assert (ls + rest)[|f.body|] == ls[|f.body|];
      assert (ls + rest)[..|f.body|] == ls[..|f.body|];
    } else {
      forall i | 0 <= i < |ls| ensures !EndsFrame(ls[i], v) {
        assert ls[i] == (ls + rest)[i] == f.body[i];
      }
    }
  }

  /**
   * Lines none of which ends the frame are stored whatever follows them:
   * decoding continues into the lines after them.
   */
  lemma {:induction false} DecodeAppend(ls: seq<string>, rest: seq<string>, v: Variant)
    requires forall i :: 0 <= i < |ls| ==> !EndsFrame(ls[i], v)
    ensures var g := DecodeFrame(rest, v);
      DecodeFrame(ls + rest, v) == Frame(ls + g.body, |ls| + g.consumed)
    decreases |ls|
  {
    if ls != [] {
      DropAppend(ls, rest, 1);
      DecodeAppend(ls[1..], rest, v);
      Assoc([ls[0]], ls[1..], DecodeFrame(rest, v).body);
      HeadTail(ls);
    } else {
      assert ls + rest == rest;
    }
  }
}

=== FILE: interop.dfy ===
/**
 * What the two ends make of each other's framing: the characters a client
 * turn puts on the socket, read back as lines by the server, and the
 * characters the server's `/get` writes, read by the client's download loop
 * and its next `readLine`. Each revision of the client is paired with the
 * server of the same revision.
 */
module Interop {
  import opened Wrappers
  import opened JavaText
  import opened LineIo
  import opened Framing
  import opened Seqs
  import Client
  import Server

  /** A file name that a command can carry as its second part and that fits on one line. */
  predicate FileName(name: string) {
    name != "" && NoSpace(name) && IsLine(name)
  }

  function StoreCommand(name: string): string {
    "/store " + name
  }

  function GetCommand(name: string): string {
    "/get " + name
  }

  /** None of the lines `ls` ends an upload frame of revision `v`. */
  predicate PlainLines(ls: seq<string>, v: Variant) {
    forall i :: 0 <= i < |ls| ==> !EndsFrame(ls[i], v)
  }

  /**
   * `/store <name>` is one line, which the server dispatches to `/store`
   * with the name as `parts[1]`, and which the client recognises as an
   * upload of the local file `name`.
   */
  lemma StoreCommandParses(name: string)
    requires FileName(name)
    ensures IsLine(StoreCommand(name))
    ensures Split(StoreCommand(name)) == ["/store", name]
    ensures Server.CommandOf(StoreCommand(name)) == Some(Server.Store)
    ensures Client.IsUpload(StoreCommand(name)) && Client.FileArg(StoreCommand(name)) == Some(name)
  {
    assert StoreCommand(name) == "/store" + " " + name;
    SplitTwoWords("/store", name);
    assert ToLowerAscii("/store") == "/store";
    var c := StoreCommand(name);
    assert c[..6] == "/store";
    forall i | 0 <= i < |c| ensures !IsLineBreak(c[i]) {
      if i >= 7 {
        assert c[i] == name[i - 7];
      }
    }
  }

  /** `/get <name>` likewise, dispatched to `/get` and taken by the client as a download of `name`. */
  lemma GetCommandParses(name: string)
    requires FileName(name)
    ensures Split(GetCommand(name)) == ["/get", name]
    ensures Server.CommandOf(GetCommand(name)) == Some(Server.Get)
    ensures Client.IsDownload(GetCommand(name)) && Client.FileArg(GetCommand(name)) == Some(name)
  {
    assert GetCommand(name) == "/get" + " " + name;
    SplitTwoWords("/get", name);
    assert ToLowerAscii("/get") == "/get";
    var c := GetCommand(name);
    var lc := ToLowerAscii(c);
    assert lc[..4] == "/get" by {
      forall i | 0 <= i < 4 ensures lc[i] == "/get"[i] {
        assert c[i] == "/get"[i];
      }
    }
    assert c[1] == 'g';
  }

  /** What a current-revision client sends for `/store <name>` when the file is readable. */
  lemma TransmitCurrent(name: string, disk: map<string, string>)
    requires FileName(name) && name in disk
    ensures Client.Transmit(StoreCommand(name), disk, Current) == StoreCommand(name) + "\n" + (disk[name] + Sentinel)
  {
    StoreCommandParses(name);
  }

  /** The sentinel is an empty line and the line "EOF". */
  lemma SentinelJoin()
    ensures Sentinel == JoinLines(["", "EOF"])
  {
    assert JoinLines(["EOF"]) == "EOF\n";
  }

  /** The sentinel is a "\n" that ends the line before it, then the line "EOF". */
  lemma SentinelSplit()
    ensures Sentinel == "\n" + JoinLines(["EOF"])
  {
    assert JoinLines(["EOF"]) == "EOF\n";
  }

  /** The sentinel reads as an empty line and the line "EOF". */
  lemma SentinelLines(rest: string)
    ensures ReadLines(Sentinel + rest) == ["", "EOF"] + ReadLines(rest)
  {
    SentinelJoin();
    ReadJoinLines(["", "EOF"], rest);
  }

  /**
   * Content that does not end with a terminator, followed by the sentinel,
   * reads as the content's lines and the line "EOF": the sentinel's leading
   * "\n" only terminates the content's last line.
   */
  lemma ContentSentinelLines(content: string, rest: string)
    requires content != [] && !IsLineBreak(content[|content| - 1])
    ensures ReadLines(content + Sentinel + rest) == ReadLines(content) + (["EOF"] + ReadLines(rest))
  {
    SentinelSplit();
    Assoc("\n", JoinLines(["EOF"]), rest);
    Assoc(content, Sentinel, rest);
    ReadLinesThenJoined(content, ["EOF"], rest);
  }

  /**
   * Current revision: the server reads a content upload as the command
   * line, the content's lines, the sentinel line "EOF", then whatever the
   * client sends next, provided the content is non-empty and does not end
   * with a line terminator.
   */
  lemma CurrentUploadLines(name: string, disk: map<string, string>, rest: string)
    requires FileName(name) && name in disk
    requires disk[name] != [] && !IsLineBreak(disk[name][|disk[name]| - 1])
    ensures ReadLines(Client.Transmit(StoreCommand(name), disk, Current) + rest) ==
      [StoreCommand(name)] + (ReadLines(disk[name]) + (["EOF"] + ReadLines(rest)))
  {
    StoreCommandParses(name);
    TransmitCurrent(name, disk);
    var c, content := StoreCommand(name), disk[name];
    var tail := content + Sentinel;
    Assoc(c + "\n", tail, rest);
    ReadLinesAfterLine(c, tail + rest);
    ContentSentinelLines(content, rest);
  }

  /**
   * The upload round trip of the current revision: the server's frame holds
   * exactly the content's lines, and consumes the sentinel and nothing
   * after it, if and only if none of the content's lines is empty or
   * "EOF"; otherwise the stored lines are a strict prefix of the content's
   * lines. When the content has no '\r', the stored characters are the
   * content plus a final newline.
   */
  lemma CurrentUploadRoundTrip(name: string, disk: map<string, string>, rest: string)
    requires FileName(name) && name in disk
    requires disk[name] != [] && !IsLineBreak(disk[name][|disk[name]| - 1])
    ensures var lines := ReadLines(Client.Transmit(StoreCommand(name), disk, Current) + rest);
      var sent := ReadLines(disk[name]);
      var f := DecodeFrame(lines[1..], Current);
      (f == Frame(sent, |sent| + 1) <==> PlainLines(sent, Current)) &&
      (f == Frame(sent, |sent| + 1) ==> lines[1 + f.consumed..] == ReadLines(rest)) &&
      (!PlainLines(sent, Current) ==> |f.body| < |sent| && f.body == sent[..|f.body|])
    ensures PlainLines(ReadLines(disk[name]), Current) && '\r' !in disk[name] ==>
      JoinLines(DecodeFrame(ReadLines(Client.Transmit(StoreCommand(name), disk, Current) + rest)[1..], Current).body) ==
        disk[name] + "\n"
  {
    CurrentUploadLines(name, disk, rest);
    var sent, r := ReadLines(disk[name]), ReadLines(rest);
    var lines := ReadLines(Client.Transmit(StoreCommand(name), disk, Current) + rest);
    DropAppend([StoreCommand(name)], sent + (["EOF"] + r), 1);
    FrameEndsWithin(sent, ["EOF"] + r, Current);
    if PlainLines(sent, Current) {
      Assoc(sent, ["EOF"], r);
      DecodeTerminated(sent, "EOF", r, Current);
      DropAppend(sent + ["EOF"], r, |sent| + 1);
      if '\r' !in disk[name] {
        JoinReadLines(disk[name]);
      }
    }
  }

  /**
   * A content that ends with one '\n', and none of whose lines is empty or
   * "EOF", leaves an empty line before the sentinel:
   * the frame ends there, and "EOF" is read next as a command, which the
   * server answers with "Error: Command not found.".
   */
  lemma CurrentUploadTrailingNewline(name: string, disk: map<string, string>, c: string, rest: string)
    requires FileName(name) && name in disk && disk[name] == c + "\n"
    requires c != [] && !IsLineBreak(c[|c| - 1]) && PlainLines(ReadLines(c), Current)
    ensures var lines := ReadLines(Client.Transmit(StoreCommand(name), disk, Current) + rest);
      var f := DecodeFrame(lines[1..], Current);
      f == Frame(ReadLines(c), |ReadLines(c)| + 1) &&
      lines[1 + f.consumed..] == ["EOF"] + ReadLines(rest)
  {
    var sent, r := ReadLines(c), ReadLines(rest);
    CurrentUploadTrailingLines(name, disk, c, rest);
    DropAppend([StoreCommand(name)], sent + ([""] + (["EOF"] + r)), 1);
    Assoc(sent, [""], ["EOF"] + r);
    DecodeTerminated(sent, "", ["EOF"] + r, Current);
    DropAppend(sent + [""], ["EOF"] + r, |sent| + 1);
  }

  /** The lines the server reads for an upload of content `c` followed by a '\n'. */
  lemma CurrentUploadTrailingLines(name: string, disk: map<string, string>, c: string, rest: string)
    requires FileName(name) && name in disk && disk[name] == c + "\n"
    requires c != [] && !IsLineBreak(c[|c| - 1])
    ensures ReadLines(Client.Transmit(StoreCommand(name), disk, Current) + rest) ==
      [StoreCommand(name)] + (ReadLines(c) + ([""] + (["EOF"] + ReadLines(rest))))
  {
    var cmd := StoreCommand(name);
    StoreCommandParses(name);
    TransmitCurrent(name, disk);
    Assoc(cmd + "\n", disk[name] + Sentinel, rest);
    ReadLinesAfterLine(cmd, disk[name] + Sentinel + rest);
    TrailingNewlineLines(c, rest);
  }

  /** Content ending with "\n" followed by the sentinel reads as the content's lines, an empty line and "EOF". */
  lemma TrailingNewlineLines(c: string, rest: string)
    requires c != [] && !IsLineBreak(c[|c| - 1])
    ensures ReadLines(c + "\n" + Sentinel + rest) == ReadLines(c) + ([""] + (["EOF"] + ReadLines(rest)))
  {
    var tail := Sentinel + rest;
    Assoc(c + "\n", Sentinel, rest);
    ReadLinesAppend(c, tail);
    SentinelLines(rest);
  }

  /**
   * An upload command that sends no content (wrong arity, unreadable or
   * empty file) still sends the sentinel: the server reads an empty line and
   * "EOF" after the command, and takes each of them, when read as a command,
   * for an unknown one.
   */
  lemma CurrentUploadWithoutContent(command: string, disk: map<string, string>, rest: string)
    requires IsLine(command) && Client.IsUpload(command)
    requires var f := Client.FileArg(command); f.None? || f.value !in disk || disk[f.value] == ""
    ensures ReadLines(Client.Transmit(command, disk, Current) + rest) == [command] + (["", "EOF"] + ReadLines(rest))
  {
    assert Client.Transmit(command, disk, Current) == command + "\n" + Sentinel;
    Assoc(command, "\n", Sentinel);
    Assoc(command + "\n", Sentinel, rest);
    ReadLinesAfterLine(command, Sentinel + rest);
    SentinelLines(rest);
  }

  /**
   * Read as commands, both lines of the sentinel are unknown ones, which the
   * server answers with "Error: Command not found.".
   */
  lemma SentinelCommands()
    ensures Server.CommandOf("") == Some(Server.Unknown) && Server.CommandOf("EOF") == Some(Server.Unknown)
  {
    assert ToLowerAscii("EOF") == "eof";
  }

  /**
   * Legacy revision: the client re-sends the file's lines, each followed by
   * "\n", with nothing after them, so the server reads the command line,
   * the file's lines, then whatever the client sends next.
   */
  lemma LegacyUploadLines(name: string, disk: map<string, string>, rest: string)
    requires FileName(name) && name in disk
    ensures ReadLines(Client.Transmit(StoreCommand(name), disk, Legacy) + rest) ==
      [StoreCommand(name)] + (ReadLines(disk[name]) + ReadLines(rest))
  {
    StoreCommandParses(name);
    var c := StoreCommand(name);
    var sent := ReadLines(disk[name]);
    assert Client.Transmit(c, disk, Legacy) == c + "\n" + JoinLines(sent);
    Assoc(c + "\n", JoinLines(sent), rest);
    ReadLinesAfterLine(c, JoinLines(sent) + rest);
    ReadJoinLines(sent, rest);
  }

  /**
   * The legacy frame ends within the uploaded file if and only if the file
   * has an empty line, and then holds the lines before the first one; a file
   * without an empty line is stored together with the lines sent after it,
   * up to the next empty line or the end of the stream.
   */
  lemma LegacyUploadFrame(name: string, disk: map<string, string>, rest: string)
    requires FileName(name) && name in disk
    ensures var lines := ReadLines(Client.Transmit(StoreCommand(name), disk, Legacy) + rest);
      var sent := ReadLines(disk[name]);
      var f := DecodeFrame(lines[1..], Legacy);
      (|f.body| < |sent| <==> exists i :: 0 <= i < |sent| && sent[i] == "") &&
      (|f.body| < |sent| ==> f.body == sent[..|f.body|] && sent[|f.body|] == "")
    ensures var lines := ReadLines(Client.Transmit(StoreCommand(name), disk, Legacy) + rest);
      var sent := ReadLines(disk[name]);
      var g := DecodeFrame(ReadLines(rest), Legacy);
      PlainLines(sent, Legacy) ==>
        DecodeFrame(lines[1..], Legacy) == Frame(sent + g.body, |sent| + g.consumed)
  {
    LegacyUploadLines(name, disk, rest);
    var sent, r := ReadLines(disk[name]), ReadLines(rest);
    DropAppend([StoreCommand(name)], sent + r, 1);
    FrameEndsWithin(sent, r, Legacy);
    if PlainLines(sent, Legacy) {
      DecodeAppend(sent, r, Legacy);
    }
  }

  /** The sentinel followed by `x`: a "\n", the line "EOF" and its "\n", then `x`. */
  lemma SentinelBefore(x: string)
    ensures Sentinel + x == "\n" + ("EOF" + ("\n" + x))
  {
    SentinelSplit();
    Assoc("\n", JoinLines(["EOF"]), x);
    JoinOne("EOF", x);
  }

  /** After the "EOF" line of a `/get` reply, the next line read starts with the prompt. */
  lemma PromptLine(incoming: string, at: nat, rest: string)
    requires at <= |incoming| && incoming[at..] == Server.Prompt + rest
    ensures var next := NextLine(incoming, at);
      next.Some? && StartsWith(next.value.0, Server.Prompt) && !StartsWith(next.value.0, Client.Closing)
  {
    FirstLineStartsWith(Server.Prompt, rest);
    var line := NextLine(incoming, at).value.0;
    assert line == ReadLines(Server.Prompt + rest)[0];
    assert line[0] == Server.Prompt[0];
  }

  /**
   * A download command whose reply holds `saved`, a "\n" and then `tail`
   * saves exactly `saved` and leaves the client reading `tail`.
   */
  lemma DownloadLine(command: string, name: string, disk: map<string, string>, unwritable: set<string>,
                     incoming: string, at: nat, saved: string, tail: string)
    requires Client.IsDownload(command) && Client.FileArg(command) == Some(name) && name !in unwritable
    requires at <= |incoming| && incoming[at..] == saved + ("\n" + tail) && '\n' !in saved
    ensures Client.Download(command, disk, unwritable, incoming, at, Current) == (disk[name := saved], at + |saved| + 1)
    ensures incoming[at + |saved| + 1..] == tail
  {
    UpToNewlineAppend(saved, "\n" + tail);
    DropAppend(saved, "\n" + tail, |saved|);
    assert incoming[at + |saved| + 1..] == incoming[at..][|saved| + 1..];
  }

  /**
   * A current-revision `/get` of a file without '\n', seen by the client
   * when the server's reply (the file, then the sentinel) is followed by
   * `tail`: the download (for any command the client takes for a download
   * of `name`, such as `GetCommand(name)`) saves exactly the file, the
   * response line it then reads is "EOF", and the client is left reading
   * `tail`, which holds the server's next prompt.
   */
  lemma GetSingleLine(command: string, name: string, content: string, disk: map<string, string>,
                      unwritable: set<string>, incoming: string, at: nat, tail: string)
    requires Client.IsDownload(command) && Client.FileArg(command) == Some(name) && name !in unwritable
    requires '\n' !in content
    requires at <= |incoming| && incoming[at..] == content + (Sentinel + tail)
    ensures Client.Download(command, disk, unwritable, incoming, at, Current) ==
            (disk[name := content], at + |content| + 1)
    ensures NextLine(incoming, at + |content| + 1) == Some(("EOF", at + |content| + 5))
    ensures incoming[at + |content| + 5..] == tail
  {
    var y := "EOF" + ("\n" + tail);
    SentinelBefore(tail);
    assert incoming[at..] == content + ("\n" + y);
    DownloadLine(command, name, disk, unwritable, incoming, at, content, y);
    var mid := at + |content| + 1;
    assert incoming[mid..] == "EOF" + ("\n" + tail);
    NextLineAfterLine(incoming, mid, "EOF", tail);
  }

  /**
   * A current-revision `/get` of a stored file whose lines are `ls` (what a
   * successful upload stores, see `CurrentUploadRoundTrip`), seen by the
   * client: the download saves only the first line (`StoredReplyNext` says
   * what the client then takes for the response).
   */
  lemma GetStoredFile(command: string, name: string, ls: seq<string>, disk: map<string, string>,
                      unwritable: set<string>, incoming: string, at: nat, tail: string)
    requires Client.IsDownload(command) && Client.FileArg(command) == Some(name) && name !in unwritable
    requires |ls| > 0 && forall i :: 0 <= i < |ls| ==> IsLine(ls[i])
    requires at <= |incoming| && incoming[at..] == JoinLines(ls) + (Sentinel + tail)
    ensures Client.Download(command, disk, unwritable, incoming, at, Current) ==
            (disk[name := ls[0]], at + |ls[0]| + 1)
    ensures incoming[at + |ls[0]| + 1..] == JoinLines(ls[1..]) + (Sentinel + tail)
  {
    var z := Sentinel + tail;
    var after := JoinLines(ls[1..]) + z;
    JoinLinesHead(ls, z);
    assert incoming[at..] == ls[0] + ("\n" + after);
    LineHasNoNewline(ls[0]);
    DownloadLine(command, name, disk, unwritable, incoming, at, ls[0], after);
  }

  /**
   * The `readLine()` after the download of a stored file with lines `ls`
   * returns its second line or, when there is none, the empty line that
   * opens the sentinel.
   */
  lemma StoredReplyNext(incoming: string, mid: nat, ls: seq<string>, tail: string)
    requires |ls| > 0 && forall i :: 0 <= i < |ls| ==> IsLine(ls[i])
    requires mid <= |incoming| && incoming[mid..] == JoinLines(ls[1..]) + (Sentinel + tail)
    ensures var next := NextLine(incoming, mid);
      next.Some? && next.value.0 == (ls[1..] + [""])[0]
  {
    NextLineReads(incoming, mid);
    assert forall i :: 0 <= i < |ls[1..]| ==> IsLine(ls[1..][i]);
    StoredReplyLine(ls[1..], tail);
  }

  /**
   * Read as lines, the rest of a `/get` reply after the stored file's first
   * line starts with the file's second line or, when there is none, with
   * the empty line that opens the sentinel.
   */
  lemma StoredReplyLine(ls: seq<string>, tail: string)
    requires forall i :: 0 <= i < |ls| ==> IsLine(ls[i])
    ensures var lines := ReadLines(JoinLines(ls) + (Sentinel + tail));
      lines != [] && lines[0] == (ls + [""])[0]
  {
    ReadJoinLines(ls, Sentinel + tail);
    SentinelLines(tail);
    var lines := ReadLines(JoinLines(ls) + (Sentinel + tail));
    assert lines == ls + (["", "EOF"] + ReadLines(tail));
  }
}

=== FILE: java_text.dfy ===
/**
 * The few java.lang.String and java.lang.Integer operations the file-exchange
 * programs rely on, modelled on values: String.startsWith, an ASCII
 * String.toLowerCase, String.split(" ") with its trailing-empty-string rule,
 * and Integer.parseInt.
 */
module JavaText {
  import opened Wrappers

  /** `s.startsWith(p)`. */
  predicate StartsWith(s: string, p: string) {
    |p| <= |s| && s[..|p|] == p
  }

  /** Character.toLowerCase restricted to ASCII letters. */
  function LowerChar(c: char): char {
    if 'A' <= c <= 'Z' then (c as int + 32) as char else c
  }

  /** `s.toLowerCase()`, ASCII only. */
  function ToLowerAscii(s: string): (r: string)
    ensures |r| == |s|
    ensures forall i :: 0 <= i < |s| ==> r[i] == LowerChar(s[i])
  {
    if s == [] then [] else [LowerChar(s[0])] + ToLowerAscii(s[1..])
  }

  /** No character of `s` is a space. */
  predicate NoSpace(s: string) {
    forall i :: 0 <= i < |s| ==> s[i] != ' '
  }

  /** Every character of `s` is a space. */
  predicate AllSpaces(s: string) {
    forall i :: 0 <= i < |s| ==> s[i] == ' '
  }

  /** `String.join(" ", ws)`. */
  function JoinWords(ws: seq<string>): string {
    if |ws| == 0 then ""
    else if |ws| == 1 then ws[0]
    else ws[0] + " " + JoinWords(ws[1..])
  }

  /**
   * Every field between single spaces, empty ones included: the pieces
   * `s.split(" ", -1)` returns.
   */
  function Fields(s: string): (r: seq<string>)
    ensures |r| > 0
    ensures forall i :: 0 <= i < |r| ==> NoSpace(r[i])
  {
    if s == [] then [""]
    else if s[0] == ' ' then [""] + Fields(s[1..])
    else
      var t := Fields(s[1..]);
      [[s[0]] + t[0]] + t[1..]
  }

  /** Removes the empty strings at the end of `ws`. */
  function DropTrailingEmpty(ws: seq<string>): (r: seq<string>)
    ensures |r| <= |ws| && r == ws[..|r|]
    ensures |r| == 0 || r[|r| - 1] != ""
    ensures forall i :: |r| <= i < |ws| ==> ws[i] == ""
  {
    if |ws| > 0 && ws[|ws| - 1] == "" then DropTrailingEmpty(ws[..|ws| - 1]) else ws
  }

  /**
   * `s.split(" ")`: when `s` holds no space the result is `[s]` (so `""`
   * gives `[""]`); otherwise the fields between single spaces with the
   * trailing empty ones removed (so a line of spaces gives no part at all).
   */
  function Split(s: string): (r: seq<string>)
    ensures forall i :: 0 <= i < |r| ==> NoSpace(r[i])
    ensures NoSpace(s) ==> r == [s]
    ensures !NoSpace(s) ==> |r| == 0 || r[|r| - 1] != ""
  {
    if NoSpace(s) then [s] else DropTrailingEmpty(Fields(s))
  }

  lemma {:induction false} JoinFieldsConsShift(c: char, t: seq<string>)
    requires |t| > 0
    ensures JoinWords([[c] + t[0]] + t[1..]) == [c] + JoinWords(t)
  {
    var u := [[c] + t[0]] + t[1..];
    if |t| > 1 {
      assert u[1..] == t[1..];
    }
  }

  /** The fields of `s`, joined back with single spaces, give `s` again. */
  lemma {:induction false} FieldsJoin(s: string)
    ensures JoinWords(Fields(s)) == s
  {
    if s == [] {
    } else if s[0] == ' ' {
      FieldsJoin(s[1..]);
      var t := Fields(s[1..]);
      assert ([""] + t)[1..] == t;
      assert s == [' '] + s[1..];
    } else {
      FieldsJoin(s[1..]);
      JoinFieldsConsShift(s[0], Fields(s[1..]));
      assert s == [s[0]] + s[1..];
    }
  }

  /** A field with no space in the string is the whole string. */
  lemma {:induction false} FieldsOfWord(s: string)
    requires NoSpace(s)
    ensures Fields(s) == [s]
  {
    if s != [] {
      FieldsOfWord(s[1..]);
      assert [s[0]] + s[1..] == s;
    }
  }

  /** Fields of `a + " " + b` when `a` holds no space. */
  lemma {:induction false} FieldsAfterWord(a: string, b: string)
    requires NoSpace(a)
    ensures Fields(a + " " + b) == [a] + Fields(b)
  {
    if a == [] {
      assert a + " " + b == [' '] + b;
      assert (a + " " + b)[1..] == b;
    } else {
      FieldsAfterWord(a[1..], b);
      assert (a + " " + b)[1..] == a[1..] + " " + b;
      assert [a[0]] + a[1..] == a;
    }
  }

  /**
   * Dropping trailing empty words from a word list removes only trailing
   * spaces from its join: the join of what remains is a prefix of the full
   * join and everything after it is spaces.
   */
  lemma {:induction false} JoinDropTrailing(ws: seq<string>)
    ensures var j, d := JoinWords(ws), JoinWords(DropTrailingEmpty(ws));
      StartsWith(j, d) && AllSpaces(j[|d|..])
    decreases |ws|
  {
    if |ws| > 0 && ws[|ws| - 1] == "" {
      var init := ws[..|ws| - 1];
      assert ws == init + [""];
      JoinDropTrailing(init);
      JoinSnoc(init, "");
      var ji, d := JoinWords(init), JoinWords(DropTrailingEmpty(init));
      assert DropTrailingEmpty(ws) == DropTrailingEmpty(init);
      if init != [] {
        assert JoinWords(ws) == ji + " ";
        assert (ji + " ")[..|d|] == ji[..|d|];
        assert (ji + " ")[|d|..] == ji[|d|..] + " ";
      }
    }
  }

  /** Joining with one more word appends a space and the word. */
  lemma {:induction false} JoinSnoc(ws: seq<string>, w: string)
    ensures JoinWords(ws + [w]) == if ws == [] then w else JoinWords(ws) + " " + w
    decreases |ws|
  {
    if |ws| > 1 {
      JoinSnoc(ws[1..], w);
      assert (ws + [w])[1..] == ws[1..] + [w];
    } else if |ws| == 1 {
      assert (ws + [w])[1..] == [w];
    }
  }

  /**
   * What `split(" ")` keeps: when `s` yields at least one part, `s` is the
   * parts joined with single spaces followed only by spaces (the dropped
   * trailing empty fields); it yields no part exactly when `s` is a
   * non-empty run of spaces.
   */
  lemma {:induction false} SplitJoin(s: string)
    ensures |Split(s)| > 0 ==> StartsWith(s, JoinWords(Split(s))) && AllSpaces(s[|JoinWords(Split(s))|..])
    ensures |Split(s)| == 0 <==> s != [] && AllSpaces(s)
  {
    if NoSpace(s) {
      assert s[..|s|] == s;
      if s != [] {
        assert s[0] != ' ';
      }
    } else {
      var k :| 0 <= k < |s| && s[k] == ' ';
      FieldsJoin(s);
      JoinDropTrailing(Fields(s));
      var r := Split(s);
      var j := JoinWords(r);
      if |r| == 0 {
        assert s[|j|..] == s;
      } else if AllSpaces(s) {
        WordInJoinIsSpaceFree(r);
        assert false;
      }
    }
  }

  /** A join whose last word is non-empty holds a non-space character. */
  lemma {:induction false} WordInJoinIsSpaceFree(r: seq<string>)
    requires |r| > 0 && r[|r| - 1] != "" && NoSpace(r[|r| - 1])
    ensures !AllSpaces(JoinWords(r))
  {
    if |r| == 1 {
      assert JoinWords(r)[0] == r[0][0];
    } else {
      WordInJoinIsSpaceFree(r[1..]);
      var j := JoinWords(r[1..]);
      var i :| 0 <= i < |j| && j[i] != ' ';
      assert JoinWords(r)[|r[0]| + 1 + i] == j[i];
    }
  }

  /** A command of two space-free words splits into exactly those words. */
  lemma {:induction false} SplitTwoWords(a: string, b: string)
    requires a != "" && b != "" && NoSpace(a) && NoSpace(b)
    ensures Split(a + " " + b) == [a, b]
  {
    FieldsAfterWord(a, b);
    FieldsOfWord(b);
    assert (a + " " + b)[|a|] == ' ';
  }

  // ---------------------------------------------------------------------
  // Integer.parseInt

  const IntMin: int := -0x8000_0000
  const IntMax: int := 0x7fff_ffff

  predicate IsDigit(c: char) {
    '0' <= c <= '9'
  }

  predicate AllDigits(s: string) {
    forall i :: 0 <= i < |s| ==> IsDigit(s[i])
  }

  /** The value of a run of decimal digits, most significant first. */
  function DigitsValue(ds: string): nat
    requires AllDigits(ds)
  {
    if ds == [] then 0
    else DigitsValue(ds[..|ds| - 1]) * 10 + (ds[|ds| - 1] as int - '0' as int)
  }

  /**
   * `Integer.parseInt(s)`: an optional sign then one or more ASCII digits,
   * with a value in the 32-bit range; `None` stands for the
   * NumberFormatException thrown on anything else.
   */
  function ParseInt(s: string): (r: Option<int>)
    ensures r.Some? ==> IntMin <= r.value <= IntMax
    ensures r.Some? ==> |s| > 0 && (IsDigit(s[0]) || s[0] == '+' || s[0] == '-')
    ensures r.Some? ==> s[0] == '-' || 0 <= r.value
  {
    var signed := |s| > 0 && (s[0] == '-' || s[0] == '+');
    var ds := if signed then s[1..] else s;
    if ds == [] || !AllDigits(ds) then None
    else
      var v: int := if signed && s[0] == '-' then -(DigitsValue(ds) as int) else DigitsValue(ds);
      if IntMin <= v <= IntMax then Some(v) else None
  }

  /** Decimal notation of a natural number, as Integer.toString writes it. */
  function Decimal(n: nat): (r: string)
    ensures |r| > 0 && AllDigits(r)
  {
    var d := ['0' + (n % 10) as char];
    if n < 10 then d else Decimal(n / 10) + d
  }

  lemma {:induction false} DecimalValue(n: nat)
    ensures DigitsValue(Decimal(n)) == n
  {
    var d := ['0' + (n % 10) as char];
    if n >= 10 {
      DecimalValue(n / 10);
      var s := Decimal(n / 10) + d;
      assert s[..|s| - 1] == Decimal(n / 10);
    }
  }

  /** parseInt reads back every port number (and every int) written in decimal. */
  lemma ParseIntDecimal(n: nat)
    requires n <= IntMax
    ensures ParseInt(Decimal(n)) == Some(n)
  {
    DecimalValue(n);
  }
}

=== FILE: line_io.dfy ===
/**
 * How a character stream falls apart into lines when it is read with
 * java.io.BufferedReader.readLine: a line ends at '\n', at '\r', or at the
 * pair "\r\n"; the terminator is not part of the line; a last line without
 * terminator is still a line; and the end of the stream right after a
 * terminator yields no extra empty line. Also the inverse direction used by
 * the writers (every line followed by "\n") and the client's "read up to the
 * first newline" download loop.
 */
module LineIo {
  import opened Wrappers
  import opened JavaText
  import opened Seqs

  predicate IsLineBreak(c: char) {
    c == '\n' || c == '\r'
  }

  /** `s` holds no line terminator: it can be one line of a stream. */
  predicate IsLine(s: string) {
    forall i :: 0 <= i < |s| ==> !IsLineBreak(s[i])
  }

  /** A line holds no '\n'. */
  lemma LineHasNoNewline(s: string)
    requires IsLine(s)
    ensures '\n' !in s
  {
    forall i | 0 <= i < |s| ensures s[i] != '\n' {
      assert !IsLineBreak(s[i]);
    }
  }

  /** Index of the first terminator of `s`, or `|s|` when there is none. */
  function LineEnd(s: string): (k: nat)
    ensures k <= |s| && forall i :: 0 <= i < k ==> !IsLineBreak(s[i])
    ensures k < |s| ==> IsLineBreak(s[k])
  {
    if s == [] || IsLineBreak(s[0]) then 0
    else
      1 + LineEnd(s[1..])
  }

  /** How many characters one readLine consumes from a non-empty `s`. */
  function LineSkip(s: string): (k: nat)
    requires s != []
    ensures LineEnd(s) < k <= |s| || LineEnd(s) == k == |s|
  {
    var e := LineEnd(s);
    if e == |s| then e
    else if s[e] == '\r' && e + 1 < |s| && s[e + 1] == '\n' then e + 2
    else e + 1
  }

  /** The successive results of readLine on `s` until it returns null. */
  function ReadLines(s: string): (ls: seq<string>)
    ensures forall i :: 0 <= i < |ls| ==> IsLine(ls[i])
    ensures |ls| <= |s|
    ensures s != [] ==> |ls| > 0
    decreases |s|
  {
    if s == [] then [] else [s[..LineEnd(s)]] + ReadLines(s[LineSkip(s)..])
  }

  /**
   * One `readLine()` call on the stream `s` positioned at `at`: `None` is
   * the null returned at end of stream, otherwise the line and the position
   * after its terminator.
   */
  function NextLine(s: string, at: nat): (r: Option<(string, nat)>)
    requires at <= |s|
    ensures r.None? <==> at == |s|
    ensures r.Some? ==> at < r.value.1 <= |s|
  {
    if at == |s| then None
    else
      var t := s[at..];
      Some((t[..LineEnd(t)], at + LineSkip(t)))
  }

  /** Successive `readLine()` calls see exactly the lines `ReadLines` splits the rest of the stream into. */
  lemma NextLineReads(s: string, at: nat)
    requires at < |s|
    ensures var r := NextLine(s, at);
      r.Some? && ReadLines(s[at..]) == [r.value.0] + ReadLines(s[r.value.1..])
  {
    var t := s[at..];
    var k := LineSkip(t);
    DropDrop(s, at, k);
    var rest := ReadLines(s[at + k..]);
    assert ReadLines(t) == [t[..LineEnd(t)]] + rest;
  }

  /** Every line followed by "\n": what a writer emits for `ls`. */
  function JoinLines(ls: seq<string>): string {
    if ls == [] then "" else ls[0] + "\n" + JoinLines(ls[1..])
  }

  /** Writing one more line appends it and its "\n". */
  lemma {:induction false} JoinLinesSnoc(ls: seq<string>, l: string)
    ensures JoinLines(ls + [l]) == JoinLines(ls) + l + "\n"
    decreases |ls|
  {
    if ls != [] {
      assert (ls + [l])[1..] == ls[1..] + [l];
      JoinLinesSnoc(ls[1..], l);
    }
  }

  /** A line followed by anything ends where the line does. */
  lemma {:induction false} LineEndAfterLine(a: string, t: string)
    requires IsLine(a)
    ensures LineEnd(a + t) == |a| + LineEnd(t)
  {
    if a != [] {
      assert (a + t)[0] == a[0];
      assert IsLine(a[1..]) by {
        forall i | 0 <= i < |a| - 1 ensures !IsLineBreak(a[1..][i]) {
          assert a[1..][i] == a[i + 1];
        }
      }
      LineEndAfterLine(a[1..], t);
      assert (a + t)[1..] == a[1..] + t;
      assert LineEnd(a + t) == 1 + LineEnd((a + t)[1..]);
    } else {
      assert a + t == t;
    }
  }

  /** A line followed by "\n" is read as that line, then the rest. */
  lemma ReadLinesAfterLine(a: string, tail: string)
    requires IsLine(a)
    ensures ReadLines(a + "\n" + tail) == [a] + ReadLines(tail)
  {
    var s := a + "\n" + tail;
    LineEndAfterLine(a, "\n" + tail);
    assert s == a + ("\n" + tail);
    assert LineEnd(s) == |a|;
    assert s[|a|] == '\n';
    assert s[..|a|] == a;
    assert s[|a| + 1..] == tail;
  }

  /** A line followed by "\r\n" is read as that line, then the rest: the pair is one terminator. */
  lemma ReadLinesAfterCrLf(a: string, tail: string)
    requires IsLine(a)
    ensures ReadLines(a + "\r\n" + tail) == [a] + ReadLines(tail)
  {
    var s := a + "\r\n" + tail;
    LineEndAfterLine(a, "\r\n" + tail);
    assert s == a + ("\r\n" + tail);
    assert LineEnd(s) == |a|;
    assert s[|a|] == '\r' && s[|a| + 1] == '\n';
    assert s[..|a|] == a;
    assert s[|a| + 2..] == tail;
  }

  /**
   * A line followed by a lone '\r' (one not followed by '\n') is read as that
   * line, and the next line starts right after the '\r'.
   */
  lemma ReadLinesAfterCr(a: string, tail: string)
    requires IsLine(a) && (tail == [] || tail[0] != '\n')
    ensures ReadLines(a + "\r" + tail) == [a] + ReadLines(tail)
  {
    var s := a + "\r" + tail;
    LineEndAfterLine(a, "\r" + tail);
    assert s == a + ("\r" + tail);
    assert LineEnd(s) == |a|;
    assert s[|a|] == '\r';
    assert |a| + 1 < |s| ==> s[|a| + 1] == tail[0];
    assert s[..|a|] == a;
    assert s[|a| + 1..] == tail;
  }

  /**
   * Reading back what a writer emitted: lines each followed by "\n" read as
   * exactly those lines, whatever follows them.
   */
  lemma {:induction false} ReadJoinLines(ls: seq<string>, rest: string)
    requires forall i :: 0 <= i < |ls| ==> IsLine(ls[i])
    ensures ReadLines(JoinLines(ls) + rest) == ls + ReadLines(rest)
    decreases |ls|
  {
    if ls != [] {
      var tail := JoinLines(ls[1..]) + rest;
      calc {
        JoinLines(ls) + rest;
        ls[0] + "\n" + JoinLines(ls[1..]) + rest;
        ls[0] + "\n" + tail;
      }
      ReadLinesAfterLine(ls[0], tail);
      assert forall i :: 0 <= i < |ls[1..]| ==> IsLine(ls[1..][i]) by {
        forall i | 0 <= i < |ls[1..]| ensures IsLine(ls[1..][i]) {
          assert ls[1..][i] == ls[i + 1];
        }
      }
      ReadJoinLines(ls[1..], rest);
      var r := ReadLines(rest);
      assert [ls[0]] + (ls[1..] + r) == ([ls[0]] + ls[1..]) + r;
      assert [ls[0]] + ls[1..] == ls;
    } else {
      assert JoinLines(ls) + rest == rest;
    }
  }

  /**
   * Splitting at an inserted "\n": when `a` is non-empty and does not itself
   * end with a terminator, the lines of `a + "\n" + rest` are the lines of
   * `a` followed by the lines of `rest`.
   */
  lemma {:induction false} ReadLinesAppend(a: string, rest: string)
    requires a != [] && !IsLineBreak(a[|a| - 1])
    ensures ReadLines(a + "\n" + rest) == ReadLines(a) + ReadLines(rest)
    decreases |a|
  {
    var e := LineEnd(a);
    if e == |a| {
      ReadLinesAfterLine(a, rest);
      ReadSingleLine(a);
    } else {
      var t := "\n" + rest;
      var k := LineSkip(a);
      FirstLineOfAppend(a, t);
      ReadLinesAppend(a[k..], rest);
      Assoc(a, "\n", rest);
      Assoc(a[k..], "\n", rest);
      var x, r := a[..e], ReadLines(rest);
      calc {
        ReadLines(a + t);
        [x] + ReadLines(a[k..] + t);
        [x] + (ReadLines(a[k..]) + r);
        ([x] + ReadLines(a[k..])) + r;
        ReadLines(a) + r;
      }
    }
  }

  /**
   * A text without trailing terminator, a "\n", then the lines `ls` written
   * out: read back, the text's lines followed by `ls`.
   */
  lemma ReadLinesThenJoined(a: string, ls: seq<string>, rest: string)
    requires a != [] && !IsLineBreak(a[|a| - 1])
    requires forall i :: 0 <= i < |ls| ==> IsLine(ls[i])
    ensures ReadLines(a + ("\n" + (JoinLines(ls) + rest))) == ReadLines(a) + (ls + ReadLines(rest))
  {
    var t := JoinLines(ls) + rest;
    ReadLinesAppend(a, t);
    Assoc(a, "\n", t);
    ReadJoinLines(ls, rest);
  }

  /**
   * When `a` holds a terminator before its last character, the first line
   * of `a + t` and its terminator lie within `a`.
   */
  lemma FirstLineOfAppend(a: string, t: string)
    requires a != [] && !IsLineBreak(a[|a| - 1]) && LineEnd(a) < |a|
    ensures LineEnd(a + t) == LineEnd(a) && LineSkip(a + t) == LineSkip(a) < |a|
    ensures (a + t)[..LineEnd(a)] == a[..LineEnd(a)] && (a + t)[LineSkip(a)..] == a[LineSkip(a)..] + t
  {
    var e := LineEnd(a);
    LineEndPrefix(a, t);
    assert (a + t)[e] == a[e] && (a + t)[e + 1] == a[e + 1];
    TakeAppend(a, t, e);
    DropAppend(a, t, LineSkip(a));
  }

  /** A terminator inside `a` is found before anything appended to `a`. */
  lemma {:induction false} LineEndPrefix(a: string, t: string)
    requires LineEnd(a) < |a|
    ensures LineEnd(a + t) == LineEnd(a)
  {
    if !IsLineBreak(a[0]) {
      LineEndPrefix(a[1..], t);
      assert (a + t)[1..] == a[1..] + t;
    }
  }

  /** `ReadLines` of a single line with no terminator is that line. */
  lemma ReadSingleLine(a: string)
    requires a != [] && IsLine(a)
    ensures ReadLines(a) == [a]
  {
    assert LineEnd(a) == |a|;
    assert a[..|a|] == a;
  }

  /**
   * The characters of `s` before its first '\n' (or all of `s`): what the
   * client's download loop keeps.
   */
  function UpToNewline(s: string): (r: string)
    ensures |r| <= |s| && r == s[..|r|]
    ensures '\n' !in r
    ensures |r| < |s| ==> s[|r|] == '\n'
  {
    if s == [] || s[0] == '\n' then []
    else
      var t := UpToNewline(s[1..]);
      assert [s[0]] + t == s[..|t| + 1];
      [s[0]] + t
  }

  /** `UpToNewline` is the only prefix of `s` free of '\n' that stops at a '\n' or at the end. */
  lemma UpToNewlineUnique(s: string, r: string)
    requires |r| <= |s| && r == s[..|r|] && '\n' !in r
    requires |r| < |s| ==> s[|r|] == '\n'
    ensures r == UpToNewline(s)
  {
  }

  lemma JoinLinesCons(l: string, ls: seq<string>)
    ensures JoinLines([l] + ls) == l + "\n" + JoinLines(ls)
  {
    assert ([l] + ls)[1..] == ls;
  }

  /**
   * Reading lines and writing them back with "\n" reproduces the text plus a
   * final newline, when the text's only terminator is '\n' and it does not
   * already end with one.
   */
  lemma {:induction false} JoinReadLines(c: string)
    requires c != [] && c[|c| - 1] != '\n' && '\r' !in c
    ensures JoinLines(ReadLines(c)) == c + "\n"
    decreases |c|
  {
    var e := LineEnd(c);
    if e == |c| {
      ReadSingleLine(c);
      JoinLinesCons(c, []);
    } else {
      var t := c[e + 1..];
      var nl := [c[e]];
      assert c[e] == '\n';
      assert LineSkip(c) == e + 1;
      forall x | x in t ensures x != '\r' {
        InDrop(c, e + 1, x);
      }
      JoinReadLines(t);
      JoinLinesCons(c[..e], ReadLines(t));
      SplitAt(c, e);
      calc {
        JoinLines(ReadLines(c));
        JoinLines([c[..e]] + ReadLines(t));
        c[..e] + nl + (t + nl);
        { Assoc(c[..e] + nl, t, nl); }
        c[..e] + nl + t + nl;
      }
    }
  }

  /** The first line read from `a + rest` starts with `a` when `a` is a non-empty line. */
  lemma FirstLineStartsWith(a: string, rest: string)
    requires a != [] && IsLine(a)
    ensures |ReadLines(a + rest)| > 0 && StartsWith(ReadLines(a + rest)[0], a)
  {
    LineEndAfterLine(a, rest);
    var k := LineEnd(a + rest);
    assert (a + rest)[..k][..|a|] == a;
  }

  /**
   * The download loop stops inside `a` when `a` holds a '\n', and right
   * after `a` when `a` holds none and what follows starts with '\n'.
   */
  lemma UpToNewlineAppend(a: string, b: string)
    ensures '\n' in a ==> UpToNewline(a + b) == UpToNewline(a)
    ensures '\n' !in a && |b| > 0 && b[0] == '\n' ==> UpToNewline(a + b) == a
  {
    var r := UpToNewline(a);
    if '\n' in a {
      assert |r| < |a|;
      assert (a + b)[..|r|] == r;
      UpToNewlineUnique(a + b, r);
    } else if |b| > 0 && b[0] == '\n' {
      assert (a + b)[..|a|] == a;
      UpToNewlineUnique(a + b, a);
    }
  }

  /** Written lines followed by more characters: the first line, "\n", then the rest. */
  lemma JoinLinesHead(ls: seq<string>, z: string)
    requires ls != []
    ensures JoinLines(ls) + z == ls[0] + ("\n" + (JoinLines(ls[1..]) + z))
  {
    Assoc(ls[0] + "\n", JoinLines(ls[1..]), z);
    Assoc(ls[0], "\n", JoinLines(ls[1..]) + z);
  }

  /** One written line followed by more characters. */
  lemma JoinOne(a: string, tail: string)
    ensures JoinLines([a]) + tail == a + ("\n" + tail)
  {
    assert JoinLines([a]) == a + "\n";
    Assoc(a, "\n", tail);
  }

  /** A `readLine()` at a position where a line and "\n" follow returns that line and skips the "\n". */
  lemma NextLineAfterLine(s: string, at: nat, a: string, tail: string)
    requires at <= |s| && s[at..] == a + ("\n" + tail) && IsLine(a)
    ensures NextLine(s, at) == Some((a, at + |a| + 1))
    ensures s[at + |a| + 1..] == tail
  {
    var t := s[at..];
    LineEndAfterLine(a, "\n" + tail);
    assert LineEnd(t) == |a| && t[|a|] == '\n';
    assert LineSkip(t) == |a| + 1;
    TakeAppend(a, "\n" + tail, |a|);
    DropDrop(s, at, |a| + 1);
    DropPast(a, '\n', tail);
  }
}

=== FILE: seqs.dfy ===
/** Small facts about sequence concatenation, stated once for reuse. */
module Seqs {
  lemma Assoc<T>(a: seq<T>, m: seq<T>, b: seq<T>)
    ensures a + m + b == a + (m + b)
  {
  }

  /** Dropping a prefix of the first part of a concatenation. */
  lemma DropAppend<T>(a: seq<T>, b: seq<T>, k: nat)
    requires k <= |a|
    ensures (a + b)[k..] == a[k..] + b
  {
  }

  /** A non-empty sequence is its head followed by its tail. */
  lemma HeadTail<T>(s: seq<T>)
    requires s != []
    ensures [s[0]] + s[1..] == s
  {
  }

  /** Dropping twice is dropping once. */
  lemma DropDrop<T>(s: seq<T>, a: nat, b: nat)
    requires a + b <= |s|
    ensures s[a..][b..] == s[a + b..]
  {
  }

  /** Dropping a prefix and the element after it. */
  lemma DropPast<T>(a: seq<T>, x: T, b: seq<T>)
    ensures (a + ([x] + b))[|a| + 1..] == b
  {
  }

  /** Taking a prefix of the first part of a concatenation. */
  lemma TakeAppend<T>(a: seq<T>, b: seq<T>, k: nat)
    requires k <= |a|
    ensures (a + b)[..k] == a[..k]
  {
  }

  /** A sequence is its part before `k`, its element at `k` and its part after. */
  lemma SplitAt<T>(s: seq<T>, k: nat)
    requires k < |s|
    ensures s == s[..k] + [s[k]] + s[k + 1..]
  {
  }

  /** Elements of a suffix are elements of the whole. */
  lemma InDrop<T>(s: seq<T>, k: nat, x: T)
    requires k <= |s| && x in s[k..]
    ensures x in s
  {
    var i :| 0 <= i < |s[k..]| && s[k..][i] == x;
    assert s[k + i] == x;
  }
}

=== FILE: server.dfy ===
/**
 * One connection of the file-exchange server: the command loop of
 * `handleClient` and its handlers, for both revisions of the server (the
 * dispatch loop, `/join`, `/leave`, `/register` and `/dir` are the same code
 * in both; `/store` and `/get` differ). The socket is the sequence of lines
 * its reader yields and the string its writer has written; the uploads
 * folder is a set of per-handle folders and a map from (handle, filename)
 * to file contents; the process-wide `connectedClients` map is a field this
 * connection owns.
 */
module Server {
  import opened Wrappers
  import opened JavaText
  import opened LineIo
  import opened Framing
  import opened Seqs

  /** The outbound socket a `/join` opens, known by its endpoint. */
  datatype Peer = Peer(host: string, port: int)

  /** A Java object as `HashMap.containsValue` compares it, by `equals`. */
  datatype JavaObject = JString(s: string) | JSocket(peer: Peer)

  /** `connectedClients.containsValue(value)` */
  predicate ContainsValue(registry: map<string, JavaObject>, value: JavaObject) {
    exists k :: k in registry && registry[k] == value
  }

  /** What the declared type `HashMap<String, Socket>` guarantees of the values. */
  predicate SocketsOnly(registry: map<string, JavaObject>) {
    forall k :: k in registry ==> registry[k].JSocket?
  }

  /**
   * The duplicate-handle check of `/register` asks whether a String is among
   * the map's Socket values; a String never equals a Socket, so on a
   * well-typed registry it never fires, whatever the registry holds.
   */
  lemma DuplicateCheckNeverFires(registry: map<string, JavaObject>, h: string)
    requires SocketsOnly(registry)
    ensures !ContainsValue(registry, JString(h))
  {
  }

  /**
   * What the world answers while one command is handled: the server clock,
   * whether the outbound connect of `/join` succeeds, whether `mkdirs`
   * succeeds, and whether the file opens for writing (`/store`) or reading
   * (`/get`).
   */
  datatype Effects = Effects(timestamp: string, connects: bool, folderCreated: bool, fileOpens: bool)

  /** How the command loop ends: the reader returned null, or an unchecked exception killed the worker. */
  datatype Outcome = Disconnected | Crashed

  datatype Command = Join | Leave | Register | Store | Dir | Get | Help | Unknown

  /** The `switch` on the lower-cased keyword. */
  function Classify(keyword: string): Command {
    if keyword == "/join" then Join
    else if keyword == "/leave" then Leave
    else if keyword == "/register" then Register
    else if keyword == "/store" then Store
    else if keyword == "/dir" then Dir
    else if keyword == "/get" then Get
    else if keyword == "/?" then Help
    else Unknown
  }

  /**
   * The command a line selects; `None` when the line splits into no part at
   * all (a non-empty run of spaces), where `parts[0]` throws.
   */
  function CommandOf(line: string): Option<Command> {
    var parts := Split(line);
    if |parts| == 0 then None else Some(Classify(ToLowerAscii(parts[0])))
  }

  /** Exactly the lines made only of spaces (at least one) select no command, and crash the worker. */
  lemma CommandOfNone(line: string)
    ensures CommandOf(line).None? <==> line != [] && AllSpaces(line)
  {
    SplitJoin(line);
  }

  /** `/join` arguments on which `Integer.parseInt` or the Socket constructor throws an unchecked exception. */
  predicate JoinCrashes(parts: seq<string>) {
    |parts| == 3 &&
    (ParseInt(parts[2]).None? || !(0 <= ParseInt(parts[2]).value <= 0xffff))
  }

  /** `clientHandle != null && parts.length == 2` */
  predicate IsValidStoreCommand(handle: Option<string>, parts: seq<string>) {
    handle.Some? && |parts| == 2
  }

  function Held(handle: Option<string>): set<string> {
    if handle.Some? then {handle.value} else {}
  }

  /** The files that belong to none of the handles `hs`. */
  ghost function Outside(files: map<(string, string), string>, hs: set<string>): map<(string, string), string> {
    map k | k in files && k.0 !in hs :: files[k]
  }

  lemma OutsideGrow(a: map<(string, string), string>, b: map<(string, string), string>, hs: set<string>, hs': set<string>)
    requires Outside(a, hs) == Outside(b, hs) && hs <= hs'
    ensures Outside(a, hs') == Outside(b, hs')
  {
    forall k: (string, string) | k.0 !in hs' ensures (k in a <==> k in b) && (k in a ==> a[k] == b[k]) {
      assert k in a <==> k in Outside(a, hs);
      assert k in b <==> k in Outside(b, hs);
    }
  }

  lemma OutsideUpdate(files: map<(string, string), string>, key: (string, string), v: string, hs: set<string>)
    requires key.0 in hs
    ensures Outside(files[key := v], hs) == Outside(files, hs)
  {
  }

  const CommandNotFound := "Error: Command not found.\n"
  const JoinOk := "Connection to the File Exchange Server is successful!\n"
  const JoinFailed := "Error: Connection to the Server has failed! Please check IP Address and Port Number.\n"
  const JoinSyntax := "Error: Invalid /join command syntax.\n"
  const LeaveOk := "Connection closed. Thank you!\n"
  const LeaveFailed := "Error: Disconnection failed. Please connect to the server first.\n"
  const RegisterTaken := "Error: Registration failed. Handle or alias already exists.\n"
  const RegisterSyntax := "Error: Invalid /register command syntax.\n"
  const FolderFailed := "Error: Unable to create client folder.\n"
  const SaveFailed := "Error: Failed to save the file.\n"
  const StoreSyntax := "Error: Invalid /store command syntax or not registered.\n"
  const DirHeader := "Server Directory\n"
  const DirEmpty := "Server Directory is empty.\n"
  const ReadFailed := "Error: Failed to read the file.\n"
  const NotFound := "Error: File not found on the server.\n"
  const GetSyntax := "Error: Invalid /get command syntax or not registered.\n"
  const Prompt := "Enter command: "
  const HelpText := "Available Commands:\n/join <server_ip_add> <port>\n/leave\n/register <handle>\n/store <filename>\n/dir\n/get <filename>\n/?\n"

  function Welcome(h: string): string {
    "Welcome " + h + "!\n"
  }

  function Uploaded(h: string, timestamp: string, filename: string): string {
    h + "<" + timestamp + ">: Uploaded " + filename + "\n"
  }

  function FileReceived(filename: string): string {
    "File received from Server: " + filename + "\n"
  }

  /** `listing` names every folder of `folders` exactly once, in some order. */
  ghost predicate ListsOnce(listing: seq<string>, folders: set<string>) {
    |listing| == |folders| && forall x :: x in listing <==> x in folders
  }

  /** What `/dir` may write when the uploads folder holds `folders`, in whichever order they are listed. */
  ghost predicate DirReply(folders: set<string>, text: string) {
    if folders == {} then text == DirEmpty
    else exists listing :: ListsOnce(listing, folders) && text == DirHeader + JoinLines(listing)
  }

  /** What the current revision's `/get` sends before the sentinel. */
  function GetBody(handle: Option<string>, parts: seq<string>, files: map<(string, string), string>, fileOpens: bool): string {
    if handle.Some? && |parts| == 2 then
      var key := (handle.value, parts[1]);
      if key !in files then NotFound
      else if fileOpens then files[key]
      else ReadFailed
    else GetSyntax
  }

  class Server {
    /** Which revision of the server this connection runs. */
    const variant: Variant
    /** `clientSocket.getInetAddress().toString()` */
    const address: string
    /** The lines the connection's reader yields, in order. */
    const input: seq<string>
    /** How many of them have been read. */
    var pos: nat
    /** Everything written to the connection so far. */
    var out: string
    /** `clientHandle`; None is null. */
    var handle: Option<string>
    /** `connectedClients` */
    var registry: map<string, JavaObject>
    /** The per-handle folders under the uploads folder. */
    var folders: set<string>
    /** The contents of uploads/<handle>/<filename>. */
    var files: map<(string, string), string>

    ghost predicate Valid()
      reads this
    {
      pos <= |input| &&
      SocketsOnly(registry) &&
      forall k :: k in files ==> k.0 in folders
    }

    constructor (variant: Variant, address: string, input: seq<string>,
                 registry: map<string, JavaObject>, folders: set<string>, files: map<(string, string), string>)
      requires SocketsOnly(registry)
      requires forall k :: k in files ==> k.0 in folders
      ensures Valid()
      ensures this.variant == variant && this.address == address && this.input == input
      ensures pos == 0 && out == "" && handle == None
      ensures this.registry == registry && this.folders == folders && this.files == files
    {
      this.variant := variant;
      this.address := address;
      this.input := input;
      this.registry := registry;
      this.folders := folders;
      this.files := files;
      pos := 0;
      out := "";
      handle := None;
    }

    /** `handleJoin`; returns true when an unchecked exception ends the worker. */
    method HandleJoin(parts: seq<string>, connects: bool) returns (crashed: bool)
      requires Valid()
      modifies this`registry, this`out
      ensures Valid()
      ensures crashed == JoinCrashes(parts)
      ensures registry - {address} == old(registry) - {address}
      ensures crashed ==> registry == old(registry) && out == old(out)
      ensures |parts| != 3 ==> registry == old(registry) && out == old(out) + JoinSyntax
      ensures |parts| == 3 && !crashed && connects ==>
        registry == old(registry)[address := JSocket(Peer(parts[1], ParseInt(parts[2]).value))] &&
        out == old(out) + JoinOk
      ensures |parts| == 3 && !crashed && !connects ==>
        registry == old(registry) && out == old(out) + JoinFailed
    {
      crashed := false;
      if |parts| == 3 {
        var port := ParseInt(parts[2]);
        if port.None? || !(0 <= port.value <= 0xffff) {
          return true;
        }
        if connects {
          registry := registry[address := JSocket(Peer(parts[1], port.value))];
          out := out + JoinOk;
        } else {
          out := out + JoinFailed;
        }
      } else {
        out := out + JoinSyntax;
      }
    }

    /** `handleLeave` */
    method HandleLeave()
      requires Valid()
      modifies this`registry, this`out
      ensures Valid()
      ensures address in old(registry) ==>
        registry == old(registry) - {address} && out == old(out) + LeaveOk
      ensures address !in old(registry) ==>
        registry == old(registry) && out == old(out) + LeaveFailed
      ensures registry - {address} == old(registry) - {address}
    {
      if address in registry {
        registry := registry - {address};
        out := out + LeaveOk;
      } else {
        out := out + LeaveFailed;
      }
    }

    /** `clientHandle = handleRegister(parts, writer)` */
    method HandleRegister(parts: seq<string>)
      requires Valid()
      modifies this`handle, this`out
      ensures Valid()
      // The source's "already exists" branch; DuplicateCheckNeverFires shows it is dead.
      ensures |parts| == 2 && ContainsValue(registry, JString(parts[1])) ==>
        handle == None && out == old(out) + RegisterTaken
      ensures |parts| != 2 ==> handle == None && out == old(out) + RegisterSyntax
      ensures |parts| == 2 ==> handle == Some(parts[1]) && out == old(out) + Welcome(parts[1])
    {
      var error;
      if |parts| == 2 {
        var h := parts[1];
        DuplicateCheckNeverFires(registry, h);
        if !ContainsValue(registry, JString(h)) {
          out := out + Welcome(h);
          handle := Some(h);
          return;
        }
        error := RegisterTaken;
      } else {
        error := RegisterSyntax;
      }
      out := out + error;
      handle := None;
    }

    /**
     * The upload loop: reads lines until one ends the frame or the reader
     * returns null; returns the lines read before the terminator.
     */
    method ReceiveUpload() returns (body: seq<string>)
      requires Valid()
      modifies this`pos
      ensures Valid()
      ensures var f := DecodeFrame(input[old(pos)..], variant);
        body == f.body && pos == old(pos) + f.consumed
    {
      ghost var start := pos;
      body := [];
      while pos < |input|
        invariant start <= pos <= |input|
        invariant body == input[start..pos]
        invariant forall i :: 0 <= i < |body| ==> !EndsFrame(body[i], variant)
        decreases |input| - pos
      {
        var line := input[pos];
        assert input[start..pos + 1] == body + [line];
        pos := pos + 1;
        if EndsFrame(line, variant) {
          assert input[start..] == body + [line] + input[pos..];
          DecodeTerminated(body, line, input[pos..], variant);
          return;
        }
        body := body + [line];
      }
      assert input[start..] == body + [];
      DecodeAppend(body, [], variant);
    }

    /** `handleStore` of the current revision (server/FileServer.java). */
    method HandleStoreCurrent(parts: seq<string>, timestamp: string, folderCreated: bool, fileOpens: bool)
      requires Valid() && variant == Current
      modifies this`pos, this`out, this`folders, this`files
      ensures Valid()
      ensures old(pos) <= pos
      ensures old(folders) <= folders <= old(folders) + Held(handle)
      ensures Outside(files, Held(handle)) == Outside(old(files), Held(handle))
      ensures !IsValidStoreCommand(handle, parts) ==>
        out == old(out) + StoreSyntax &&
        pos == old(pos) && folders == old(folders) && files == old(files)
      ensures IsValidStoreCommand(handle, parts) && handle.value !in old(folders) && !folderCreated ==>
        out == old(out) + FolderFailed &&
        pos == old(pos) && folders == old(folders) && files == old(files)
      ensures IsValidStoreCommand(handle, parts) && (handle.value in old(folders) || folderCreated) ==>
        folders == old(folders) + {handle.value}
      ensures IsValidStoreCommand(handle, parts) && (handle.value in old(folders) || folderCreated) && !fileOpens ==>
        out == old(out) + SaveFailed && pos == old(pos) && files == old(files)
      ensures IsValidStoreCommand(handle, parts) && (handle.value in old(folders) || folderCreated) && fileOpens ==>
        var f := DecodeFrame(input[old(pos)..], Current);
        files == old(files)[(handle.value, parts[1]) := JoinLines(f.body)] &&
        pos == old(pos) + f.consumed &&
        out == old(out) + Uploaded(handle.value, timestamp, parts[1])
    {
      if IsValidStoreCommand(handle, parts) {
        var h, filename := handle.value, parts[1];
        if h !in folders && !folderCreated {
          out := out + FolderFailed;
          return;
        }
        folders := folders + {h};
        if !fileOpens {
          out := out + SaveFailed;
          return;
        }
        var body := ReceiveUpload();
        OutsideUpdate(files, (h, filename), JoinLines(body), Held(handle));
        files := files[(h, filename) := JoinLines(body)];
        out := out + Uploaded(h, timestamp, filename);
      } else {
        out := out + StoreSyntax;
      }
    }

    /**
     * `handleStore` of the legacy revision (FileServer.java): a folder that
     * cannot be created makes the file fail to open, a file that fails to
     * open reads nothing, and the status line is written regardless.
     */
    method HandleStoreLegacy(parts: seq<string>, timestamp: string, folderCreated: bool, fileOpens: bool)
      requires Valid() && variant == Legacy
      modifies this`pos, this`out, this`folders, this`files
      ensures Valid()
      ensures old(pos) <= pos
      ensures old(folders) <= folders <= old(folders) + Held(handle)
      ensures Outside(files, Held(handle)) == Outside(old(files), Held(handle))
      ensures !IsValidStoreCommand(handle, parts) ==>
        out == old(out) + StoreSyntax &&
        pos == old(pos) && folders == old(folders) && files == old(files)
      ensures IsValidStoreCommand(handle, parts) ==>
        folders == (if folderCreated then old(folders) + {handle.value} else old(folders)) &&
        out == old(out) + Uploaded(handle.value, timestamp, parts[1])
      ensures IsValidStoreCommand(handle, parts) && !(handle.value in folders && fileOpens) ==>
        pos == old(pos) && files == old(files)
      ensures IsValidStoreCommand(handle, parts) && handle.value in folders && fileOpens ==>
        var f := DecodeFrame(input[old(pos)..], Legacy);
        files == old(files)[(handle.value, parts[1]) := JoinLines(f.body)] &&
        pos == old(pos) + f.consumed
    {
      if IsValidStoreCommand(handle, parts) {
        var h, filename := handle.value, parts[1];
        if h !in folders && folderCreated {
          folders := folders + {h};
        }
        if h in folders && fileOpens {
          var body := ReceiveUpload();
          OutsideUpdate(files, (h, filename), JoinLines(body), Held(handle));
          files := files[(h, filename) := JoinLines(body)];
        }
        out := out + Uploaded(h, timestamp, filename);
      } else {
        out := out + StoreSyntax;
      }
    }

    /**
     * `handleDir`: lists the top-level entries of the uploads folder, in the
     * order the file system hands them out (chosen arbitrarily here), and
     * returns that order.
     */
    method HandleDir() returns (listing: seq<string>)
      requires Valid()
      modifies this`out
      ensures Valid()
      ensures ListsOnce(listing, folders)
      ensures out == old(out) + if folders == {} then DirEmpty else DirHeader + JoinLines(listing)
    {
      listing := [];
      if folders == {} {
        out := out + DirEmpty;
        return;
      }
      out := out + DirHeader;
      var rest := folders;
      while rest != {}
        invariant rest <= folders
        invariant forall x :: x in listing <==> x in folders && x !in rest
        invariant |listing| + |rest| == |folders|
        invariant out == old(out) + DirHeader + JoinLines(listing)
        decreases rest
      {
        var x :| x in rest;
        JoinLinesSnoc(listing, x);
        listing := listing + [x];
        out := out + x + "\n";
        rest := rest - {x};
      }
    }

    /**
     * `handleGet` of the current revision: the file's characters, copied in
     * chunks, or one error line; then the sentinel and the prompt, always.
     */
    method HandleGetCurrent(parts: seq<string>, fileOpens: bool)
      requires Valid()
      modifies this`out
      ensures Valid()
      ensures out == old(out) + GetBody(handle, parts, files, fileOpens) + Sentinel + Prompt
    {
      if handle.Some? && |parts| == 2 {
        var key := (handle.value, parts[1]);
        if key in files {
          if fileOpens {
            var content := files[key];
            var i := 0;
            while i < |content|
              invariant 0 <= i <= |content|
              invariant out == old(out) + content[..i]
            {
              var n := if |content| - i < ChunkSize then |content| - i else ChunkSize;
              assert content[..i + n] == content[..i] + content[i..i + n];
              out := out + content[i..i + n];
              i := i + n;
            }
            assert content[..i] == content;
          } else {
            out := out + ReadFailed;
          }
        } else {
          out := out + NotFound;
        }
      } else {
        out := out + GetSyntax;
      }
      out := out + Sentinel;
      out := out + Prompt;
    }

    /** `handleGet` of the legacy revision: a stub that only acknowledges. */
    method HandleGetLegacy(parts: seq<string>)
      requires Valid()
      modifies this`out
      ensures Valid()
      ensures handle.Some? && |parts| == 2 ==> out == old(out) + FileReceived(parts[1])
      ensures !(handle.Some? && |parts| == 2) ==> out == old(out) + GetSyntax
    {
      if handle.Some? && |parts| == 2 {
        out := out + FileReceived(parts[1]);
      } else {
        out := out + GetSyntax;
      }
    }

    /** `handleCommandHelp` */
    method HandleHelp()
      requires Valid()
      modifies this`out
      ensures Valid()
      ensures out == old(out) + HelpText
    {
      out := out + HelpText;
    }

    /**
     * One turn of the `handleClient` loop after `line` was read: split,
     * lower-case the keyword and dispatch. Returns true when an unchecked
     * exception ends the worker.
     */
    method Dispatch(line: string, fx: Effects) returns (crashed: bool)
      requires Valid()
      modifies this
      ensures Valid()
      ensures crashed <==> CommandOf(line).None? || (CommandOf(line) == Some(Join) && JoinCrashes(Split(line)))
      ensures crashed ==> registry == old(registry) && out == old(out)
      ensures CommandOf(line) == Some(Unknown) ==>
        out == old(out) + CommandNotFound && handle == old(handle) && registry == old(registry)
      ensures var parts := Split(line);
        CommandOf(line) == Some(Join) && !crashed ==>
          (|parts| != 3 ==> registry == old(registry) && out == old(out) + JoinSyntax) &&
          (|parts| == 3 && fx.connects ==>
            registry == old(registry)[address := JSocket(Peer(parts[1], ParseInt(parts[2]).value))] &&
            out == old(out) + JoinOk) &&
          (|parts| == 3 && !fx.connects ==> registry == old(registry) && out == old(out) + JoinFailed)
      ensures CommandOf(line) == Some(Leave) ==>
        if address in old(registry) then registry == old(registry) - {address} && out == old(out) + LeaveOk
        else registry == old(registry) && out == old(out) + LeaveFailed
      ensures var parts := Split(line);
        CommandOf(line) == Some(Register) ==>
          if |parts| == 2 then handle == Some(parts[1]) && out == old(out) + Welcome(parts[1])
          else handle == None && out == old(out) + RegisterSyntax
      ensures CommandOf(line) == Some(Store) && !IsValidStoreCommand(handle, Split(line)) ==>
        out == old(out) + StoreSyntax && pos == old(pos) && folders == old(folders) && files == old(files)
      ensures var parts := Split(line);
        CommandOf(line) == Some(Store) && variant == Current && IsValidStoreCommand(handle, parts) ==>
          if handle.value !in old(folders) && !fx.folderCreated then
            out == old(out) + FolderFailed && pos == old(pos) && folders == old(folders) && files == old(files)
          else if !fx.fileOpens then
            out == old(out) + SaveFailed && pos == old(pos) && folders == old(folders) + {handle.value} && files == old(files)
          else
            var f := DecodeFrame(input[old(pos)..], Current);
            out == old(out) + Uploaded(handle.value, fx.timestamp, parts[1]) && pos == old(pos) + f.consumed &&
            folders == old(folders) + {handle.value} && files == old(files)[(handle.value, parts[1]) := JoinLines(f.body)]
      ensures var parts := Split(line);
        CommandOf(line) == Some(Store) && variant == Legacy && IsValidStoreCommand(handle, parts) ==>
          out == old(out) + Uploaded(handle.value, fx.timestamp, parts[1]) &&
          folders == (if fx.folderCreated then old(folders) + {handle.value} else old(folders)) &&
          if handle.value in folders && fx.fileOpens then
            var f := DecodeFrame(input[old(pos)..], Legacy);
            pos == old(pos) + f.consumed && files == old(files)[(handle.value, parts[1]) := JoinLines(f.body)]
          else pos == old(pos) && files == old(files)
      ensures CommandOf(line) == Some(Dir) ==> exists text :: out == old(out) + text && DirReply(folders, text)
      ensures CommandOf(line) == Some(Get) && variant == Current ==>
        out == old(out) + GetBody(handle, Split(line), files, fx.fileOpens) + Sentinel + Prompt
      ensures var parts := Split(line);
        CommandOf(line) == Some(Get) && variant == Legacy ==>
          out == old(out) + if handle.Some? && |parts| == 2 then FileReceived(parts[1]) else GetSyntax
      ensures CommandOf(line) == Some(Help) ==> out == old(out) + HelpText
      ensures CommandOf(line) != Some(Register) ==> handle == old(handle)
      ensures CommandOf(line) != Some(Store) ==>
        pos == old(pos) && folders == old(folders) && files == old(files)
      ensures !(CommandOf(line) in {Some(Join), Some(Leave)}) ==> registry == old(registry)
      ensures registry - {address} == old(registry) - {address}
      ensures old(pos) <= pos
      ensures old(folders) <= folders <= old(folders) + Held(old(handle))
      ensures Outside(files, Held(old(handle))) == Outside(old(files), Held(old(handle)))
    {
      var parts := Split(line);
      if |parts| == 0 {
        return true;
      }
      var command := Classify(ToLowerAscii(parts[0]));
      assert CommandOf(line) == Some(command);
      crashed := false;
      match command
      case Join =>
        crashed := HandleJoin(parts, fx.connects);
      case Leave =>
        HandleLeave();
      case Register =>
        HandleRegister(parts);
      case Store =>
        if variant == Current {
          HandleStoreCurrent(parts, fx.timestamp, fx.folderCreated, fx.fileOpens);
        } else {
          HandleStoreLegacy(parts, fx.timestamp, fx.folderCreated, fx.fileOpens);
        }
      case Dir =>
        var listing := HandleDir();
        ghost var text := if folders == {} then DirEmpty else DirHeader + JoinLines(listing);
        assert DirReply(folders, text);
      case Get =>
        if variant == Current {
          HandleGetCurrent(parts, fx.fileOpens);
        } else {
          HandleGetLegacy(parts);
        }
      case Help =>
        HandleHelp();
      case Unknown =>
        out := out + CommandNotFound;
    }

    /**
     * `handleClient`: reads and dispatches lines until the reader returns
     * null, then removes the session's handle from the registry. `world(i)`
     * is what the world answers while the command on line `i` is handled.
     * `held` collects every handle the session held.
     */
    method Serve(world: nat -> Effects) returns (outcome: Outcome, ghost held: set<string>)
      requires Valid()
      modifies this
      ensures Valid()
      ensures old(pos) <= pos
      ensures outcome == Disconnected ==> pos == |input|
      ensures outcome == Disconnected && handle.Some? ==> handle.value !in registry
      ensures outcome == Crashed ==> registry - {address} == old(registry) - {address}
      ensures registry - {address} - Held(handle) == old(registry) - {address} - Held(handle)
      ensures Held(old(handle)) <= held && Held(handle) <= held
      ensures old(folders) <= folders <= old(folders) + held
      ensures Outside(files, held) == Outside(old(files), held)
    {
      held := Held(handle);
      while pos < |input|
        invariant Valid()
        invariant old(pos) <= pos
        invariant registry - {address} == old(registry) - {address}
        invariant Held(old(handle)) <= held && Held(handle) <= held
        invariant old(folders) <= folders <= old(folders) + held
        invariant Outside(files, held) == Outside(old(files), held)
        decreases |input| - pos
      {
        var at := pos;
        var line := input[pos];
        pos := pos + 1;
        ghost var filesBefore, heldBefore, handleBefore := files, held, handle;
        var crashed := Dispatch(line, world(at));
        held := held + Held(handle);
        OutsideGrow(files, filesBefore, Held(handleBefore), held);
        OutsideGrow(filesBefore, old(files), heldBefore, held);
        if crashed {
          outcome := Crashed;
          return;
        }
      }
      outcome := Disconnected;
      if handle.Some? {
        registry := registry - {handle.value};
      }
    }
  }
}

=== FILE: wrappers.dfy ===
/** Optional values: the model's stand-in for a Java reference that may be null. */
module Wrappers {

  datatype Option<+T> = None | Some(value: T)
}
